=== FILE: README.md ===
# Teaching-site core, modelled in Dafny

This project models the logic of a course website and of its classroom exercises. There are five parts:

- **MiniExpress** (`mini_express.dfy`) models the Express-like dispatcher of the second Node lesson:
  - global middlewares run in order, each only when the previous one called `next`;
  - after all of them, the first route with the request's method and path is looked up;
  - the route's own middlewares run, then its handler;
  - a request that matches no route gets 404 "Not Found".
- **TodoStore** (`todo_store.dfy`) models the todo board:
  - `TodoState` keeps its records in local storage, returns them newest first and filters them by tab ("all", "open", "closed", "archived");
  - the older code path mutates a global `data` array. This includes its form submit handler and its counters.
- **SimpleTodo** (`simple_todo.dfy`) models the one-page `TodoApp`: add a trimmed task, remove by index, render one item per task.
- **Multipart** (`multipart.dfy`) models the hand-written `multipart/form-data` reader of the first Node lesson:
  - the boundary comes from the Content-Type header;
  - the body is split into parts, and the parts are filtered;
  - each part is cut into headers and content at its first blank line;
  - the `name="…"` and `filename="…"` parameters are matched with the lazy regular expressions the code uses;
  - fields are assigned one after another into a plain object.
- **Catalog** (`front_matter.dfy`, `node_path.dfy`, `clases.dfy`, `mdx.dfy`) models:
  - the class front-matter schema;
  - `path.extname` and `path.basename`;
  - the folder list and its `index: false` filter;
  - the fallback table of contents;
  - MDX metadata with its defaults;
  - the `.mdx` listing and single-page lookup;
  - the class list;
  - the two MIME tables.

`Text` (`text.dfy`) holds the JavaScript string built-ins the code relies on: `trim`, `split`, `indexOf` and `toLowerCase`. `Wrappers` holds `Option`.

External inputs become values:
- Local storage becomes a `Storage` value, or the constructor argument of `TodoApp`.
- The file system becomes listings and maps from names to parsed files.
- `crypto.randomUUID()` and `new Date()` become parameters.
- Middlewares and handlers become `Layer` values. A `Layer` says whether it ends the response and whether it calls `next`.

Where the JavaScript throws, the model returns `None` or, for the legacy toggles, requires what avoids the throw (see "## Left out").

## Model

| member | source | states |
|---|---|---|
| MiniExpress.Stack | NODE/clase-02/lib/mini-express.js:34 | the local stack is the route's middlewares in the given order, followed by the handler, which comes last |
| MiniExpress.Reach | NODE/clase-02/lib/mini-express.js:36-40 | when every layer calls `next`, all of them run; otherwise the chain runs up to and including the first layer that does not, and every earlier layer continued |
| MiniExpress.FindRoute | NODE/clase-02/lib/mini-express.js:24 | the index of the first route with that method and path; no earlier route matches; `None` exactly when no route matches |
| MiniExpress.Expected | NODE/clase-02/lib/mini-express.js:7-46 | lookup happens exactly when every global called `next`; a selected route matches the method and path and no earlier route does; when lookup finds nothing no route matches and a response is always sent (the 404, or an earlier global's); a stopped chain selects no route and its trace holds the layers reached |
| MiniExpress.RunChain | NODE/clase-02/lib/mini-express.js:10-17 | the cursor loop runs `Reach(layers)` layers, reports whether control passed the end, and returns the first response those layers ended |
| MiniExpress.FirstResponseSnoc | NODE/clase-02/lib/mini-express.js:36-39 | running one more layer can only add a response if none was sent yet |
| MiniExpress.Dispatcher.constructor | NODE/clase-02/lib/mini-express.js:3-5 | both registries start empty |
| MiniExpress.Dispatcher.Use | NODE/clase-02/lib/mini-express.js:49-51 | appends the middleware to the globals and leaves the routes alone |
| MiniExpress.Dispatcher.Get | NODE/clase-02/lib/mini-express.js:54-61 | appends a GET route with its path, handler and middlewares; the globals are unchanged |
| MiniExpress.Dispatcher.Post | NODE/clase-02/lib/mini-express.js:63-70 | appends a POST route; the globals are unchanged |
| MiniExpress.Dispatcher.Dispatch | NODE/clase-02/lib/mini-express.js:7-46 | the trace, the lookup, the selected route and the response equal `Expected`: the globals in order; lookup only when all of them passed; then either 404 or the matched stack |
| MiniExpress.GlobalsRunInOrder | NODE/clase-02/lib/mini-express.js:10-17 | the k-th global step is global k, and it runs only after globals 0..k-1 all called `next` |
| MiniExpress.StoppedGlobalEndsRequest | NODE/clase-02/lib/mini-express.js:15-16 | a global that does not call `next` is the last layer to run; no lookup happens, and the response is whatever the globals so far ended |
| MiniExpress.LookupOnlyAfterAllGlobals | NODE/clase-02/lib/mini-express.js:11-12 | route lookup happens exactly when every global called `next`, and after all of them ran |
| MiniExpress.FirstMatchWins | NODE/clase-02/lib/mini-express.js:24 | of two routes with the same method and path, the later one is never selected |
| MiniExpress.NoRouteAnswersNotFound | NODE/clase-02/lib/mini-express.js:26-30 | with no matching route only the globals run, and the answer is 404 "Not Found" unless a global already ended the response |
| MiniExpress.ReachAllButLast | NODE/clase-02/lib/mini-express.js:36-40 | a chain whose layers before the last all call `next` runs to its end |
| MiniExpress.FullChainRuns | NODE/clase-02/lib/mini-express.js:33-42 | with N globals and a matched route of M middlewares that all call `next`, the trace is the N globals, then the M middlewares, then the handler |
| MiniExpress.HandlerNextIsNoOp | NODE/clase-02/lib/mini-express.js:37-38 | whether the handler calls `next` makes no difference, because no layer follows it |
| MiniExpress.StackNextAtEnd | NODE/clase-02/lib/mini-express.js:37-39 | two stacks that differ only in whether their last layer calls `next` run the same layers and send the same response |
| MiniExpress.FindRouteSameKeys | NODE/clase-02/lib/mini-express.js:24 | lookup depends only on each route's method and path |
| MiniExpress.AppendedRouteKeepsDispatch | NODE/clase-02/lib/mini-express.js:54-61 | registering another route never changes how an already matched request is served |
| MiniExpress.IndexScenario | content/clases/NODE/clase-02/index.js:5-26 | in the example app, GET /auth runs both globals, `checkAuth` and the handler ("Ruta protegida"); GET / runs the globals and "Home"; an unknown path gets 404 |
| TodoStore.NewestFirstPairwise | WEB/clase-02/src/scripts.js:64 | in the sorted list every record is at least as new as every later one |
| TodoStore.Insert | WEB/clase-02/src/scripts.js:64 | insertion adds exactly the one record and keeps a newest-first list newest first |
| TodoStore.NewestFirst | WEB/clase-02/src/scripts.js:64 | the sorted list is a permutation of the stored records (same multiset), newest first |
| TodoStore.NewestFirstFixed | WEB/clase-02/src/scripts.js:64 | sorting a list that is already newest first changes nothing |
| TodoStore.Select | WEB/clase-02/src/scripts.js:84-103 | every record the tab filter returns is shown under that tab, and there are no more of them than records |
| TodoStore.SelectCons | WEB/clase-02/src/scripts.js:84-103 | the first record comes first in its tab's list when shown there, followed by the tab's list of the rest, so the filter keeps order |
| TodoStore.SelectMembers | WEB/clase-02/src/scripts.js:88-101 | a record is in a tab's list exactly when it is loaded and shown under that tab |
| TodoStore.TabsPartition | WEB/clase-02/src/scripts.js:169-173 | "all" counts "open" plus "closed", and "all" plus "archived" counts every record |
| TodoStore.AllAndArchivedCoverAll | WEB/clase-02/src/scripts.js:88-98 | the "all" and "archived" tabs together hold every record exactly once (a multiset equality) |
| TodoStore.StatsOf | WEB/clase-02/src/scripts.js:166-175 | the counts satisfy all = open + closed and all + archived = number of records |
| TodoStore.IndexOfId | WEB/clase-02/src/scripts.js:130 | `findIndex`: the first record with that id, or `None` when no record has it |
| TodoStore.WithoutId | WEB/clase-02/src/scripts.js:141 | the filter keeps exactly the records with another id, and returns the list unchanged when the id is absent |
| TodoStore.WithoutIdAppend | WEB/clase-02/src/scripts.js:141 | filtering a concatenation is filtering each part and concatenating, so order and repeats of the other records are kept |
| TodoStore.WithoutIdOne | WEB/clase-02/src/scripts.js:141 | a single record is kept exactly when its id differs |
| TodoStore.Updated | WEB/clase-02/src/scripts.js:128-137 | `None` exactly when the id is absent; otherwise the first record with that id (no earlier record has it, as `findIndex` finds) is replaced by its merge with the updates, and the others are untouched |
| TodoStore.Merge | WEB/clase-02/src/scripts.js:134 | `{...t, ...p}` field by field: each field the patch holds overrides the record's, and every other field keeps the record's value; an empty patch leaves the record as it was |
| TodoStore.LoadStable | WEB/clase-02/src/scripts.js:60-72 | loading after a load (which resets unparsable storage) sees the same records |
| TodoStore.FlipArchived | WEB/clase-02/src/scripts.js:156-163 | the first record with the id gets its archive flag negated and every other record stays as it was; with no such record the list is unchanged |
| TodoStore.FlipArchivedTwice | WEB/clase-02/src/scripts.js:161 | flipping the archive flag twice gives the list back |
| TodoStore.ArchiveToggleTwice | WEB/clase-02/src/scripts.js:156-163 | toggling the archive flag of a stored record twice leaves storage holding exactly the records `getAll` returned before |
| TodoStore.ToggleOnStored | WEB/clase-02/src/scripts.js:156-163 | toggling a present id stores the loaded list with that record's flag flipped |
| TodoStore.ToggleOnOrdered | WEB/clase-02/src/scripts.js:156-163 | on storage that is already newest first, toggling flips the flag in place |
| TodoStore.FlipArchivedKeepsOrder | WEB/clase-02/src/scripts.js:161 | flipping a flag keeps the newest-first order |
| TodoStore.NewestFirstKeepsIds | WEB/clase-02/src/scripts.js:106-108 | an id that is stored is still found after sorting |
| TodoStore.IndexOfIdSameIds | WEB/clase-02/src/scripts.js:130 | lookup by id depends only on the ids |
| TodoStore.TodoState.constructor | WEB/clase-02/src/scripts.js:56-57 | the store starts on the "all" tab |
| TodoStore.TodoState.GetAll | WEB/clase-02/src/scripts.js:60-72 | returns the stored records newest first, or `[]` for absent, non-array or unparsable storage; only unparsable storage is reset to `[]` |
| TodoStore.TodoState.GetFiltered | WEB/clase-02/src/scripts.js:84-103 | the loaded records shown under the current tab; an unknown tab shows all |
| TodoStore.TodoState.FindById | WEB/clase-02/src/scripts.js:106-108 | finds something exactly when a loaded record has the id, and then it is the first such record |
| TodoStore.TodoState.Create | WEB/clase-02/src/scripts.js:111-125 | the new record is the defaults overridden by the caller's fields: its id is the caller's when given, else the fresh one; without caller values it is not archived, open, and created now; it is appended to the loaded records and saved |
| TodoStore.TodoState.Update | WEB/clase-02/src/scripts.js:128-137 | `None` and no save when the id is unknown; otherwise the first loaded record with that id is merged with the updates, returned, and saved at that same index with every other record unchanged |
| TodoStore.TodoState.Delete | WEB/clase-02/src/scripts.js:140-143 | saves the loaded records without those with the id |
| TodoStore.TodoState.ToggleComplete | WEB/clase-02/src/scripts.js:146-153 | a result exactly when the id is present; then the record becomes completed iff it was open |
| TodoStore.TodoState.ToggleArchive | WEB/clase-02/src/scripts.js:156-163 | a result exactly when the id is present; then its archive flag is flipped, and storage becomes `ArchiveToggled` |
| TodoStore.TodoState.GetStats | WEB/clase-02/src/scripts.js:166-175 | each count is the length of its tab's list |
| TodoStore.LegacyStats | WEB/clase-02/src/scripts.js:417-420 | the older "all" counts every record, and equals open plus closed |
| TodoStore.LegacyStatsSnoc | WEB/clase-02/src/scripts.js:417-420 | one more record adds one to "all" and one to each count whose filter it passes |
| TodoStore.LegacyStatsCounts | WEB/clase-02/src/scripts.js:418-420 | open is the number of records whose `completedAt` is null, closed the number that have one, archived the number with the flag set |
| TodoStore.LegacyStatsVersusStats | WEB/clase-02/src/scripts.js:417-420 | the older "all" count is the newer one plus the archived records; both archived counts agree |
| TodoStore.LegacyBoard.constructor | WEB/clase-02/src/scripts.js:347 | the board starts from the stored list |
| TodoStore.LegacyBoard.Destroy | WEB/clase-02/src/scripts.js:488-500 | `data` loses exactly the records with that id |
| TodoStore.LegacyBoard.ToggleArchive | WEB/clase-02/src/scripts.js:545-558 | only the first record with the id changes, and only its archive flag, which flips |
| TodoStore.LegacyBoard.ToggleComplete | WEB/clase-02/src/scripts.js:584-601 | only the first record with the id changes, and its completion flips between null and now |
| TodoStore.LegacyBoard.Submit | WEB/clase-02/src/scripts.js:617-692 | a blank title is refused with no change; a blank id with a non-blank title always appends a new open record; a known id replaces that record's title, description and flag, keeping its timestamps; an unknown id changes nothing |
| SimpleTodo.WithAdded | WEB/clase-02/script.js:18-27 | blank input leaves the list alone; otherwise the trimmed text is appended and the old entries are kept |
| SimpleTodo.WithRemoved | WEB/clase-02/script.js:29-33 | `splice(index, 1)`: the entry at the index is dropped and the others shift down; an index past the end changes nothing |
| SimpleTodo.RemoveUndoesAdd | WEB/clase-02/script.js:18-33 | removing the entry just added gives the list back |
| SimpleTodo.AddKeepsTidy | WEB/clase-02/script.js:19-22 | adding keeps every task non-blank with no white space at either end |
| SimpleTodo.RemoveKeepsTidy | WEB/clase-02/script.js:29-30 | removing keeps every remaining task tidy |
| SimpleTodo.TodoApp.constructor | WEB/clase-02/script.js:7 | the list is the stored one, or empty when nothing is stored |
| SimpleTodo.TodoApp.AddTodo | WEB/clase-02/script.js:18-27 | the list becomes `WithAdded`; the box is cleared unless the input was blank |
| SimpleTodo.TodoApp.RemoveTodo | WEB/clase-02/script.js:29-33 | the list becomes `WithRemoved`; the box is untouched |
| SimpleTodo.TodoApp.Render | WEB/clase-02/script.js:35-55 | one item per task, in array order, and item k's delete button removes index k |
| Text.TrimStart | WEB/clase-02/script.js:19 | what is dropped is a prefix of white space, and the rest does not start with white space |
| Text.TrimEnd | WEB/clase-02/script.js:19 | what is dropped is a suffix of white space, and the rest does not end with white space |
| Text.Trim | WEB/clase-02/script.js:19 | the trimmed text is no longer than the input and neither starts nor ends with white space |
| Text.TrimStartSpaces | WEB/clase-02/script.js:19 | leading white space followed by text that does not start with white space trims to exactly that text |
| Text.TrimDropsSpace | WEB/clase-02/script.js:19 | everything trimming removes, at either end, is white space |
| Text.TrimEmptyIff | WEB/clase-02/src/scripts.js:629 | `s.trim()` is empty exactly when `s` is all white space |
| Text.TrimIdempotent | WEB/clase-02/script.js:19 | trimming twice is trimming once |
| Text.ToLower | content/clases/NODE/clase-01/index.js:38 | same length; every character is lower-cased, and no upper-case ASCII letter is left |
| Text.IndexOf | content/clases/NODE/clase-01/index.js:35 | the first occurrence at or after `from`, or `None` when there is none |
| Text.Split | content/clases/NODE/clase-01/index.js:35 | splitting always gives at least one piece |
| Text.SplitStep | content/clases/NODE/clase-01/index.js:35 | at the first separator, the text is the first piece, the separator and the rest, and the rest is split further |
| Text.SplitJoin | content/clases/NODE/clase-01/index.js:36 | joining the pieces with the separator gives the text back |
| Text.SplitFree | content/clases/NODE/clase-01/index.js:36 | no piece contains the separator |
| Text.Before | content/clases/NODE/clase-01/index.js:35 | the text before the first occurrence of the separator, or all of it when there is none |
| Text.BeforeFree | content/clases/NODE/clase-01/index.js:35 | the text before the first separator does not contain the separator |
| Text.SplitHead | content/clases/NODE/clase-01/index.js:35 | the first piece is the text before the first separator, and there are two or more pieces exactly when the separator occurs |
| Text.SplitPieces | content/clases/NODE/clase-01/index.js:35 | piece 0 is the text before the first separator; piece 1 exists exactly when the separator occurs, and is the text up to the next one |
| Multipart.AssignKeys | content/clases/NODE/clase-01/index.js:36-40 | the object's keys are exactly the keys written |
| Multipart.Assign | content/clases/NODE/clase-01/index.js:36-40 | every key written is in the object, and the last entry's value is the one under its key |
| Multipart.Headers | content/clases/NODE/clase-01/index.js:35-40 | every header line's key is a key of the header object |
| Multipart.LastAssignmentWins | content/clases/NODE/clase-01/index.js:38 | under each key the object holds the value of the last entry with that key |
| Multipart.HeaderEntryFields | content/clases/NODE/clase-01/index.js:37-38 | the header key is the trimmed, lower-cased text before the first ':'; the value is absent without ':', and otherwise the trimmed text up to any second ':' |
| Multipart.HeaderEntries | content/clases/NODE/clase-01/index.js:36-40 | one entry per header line, in order |
| Multipart.LastHeaderWins | content/clases/NODE/clase-01/index.js:36-40 | a repeated header keeps the value of its last line |
| Multipart.LazyCapture | content/clases/NODE/clase-01/index.js:43 | `(.+?)"` takes the shortest valid capture: no shorter one is valid, and `None` means none is |
| Multipart.MatchFrom | content/clases/NODE/clase-01/index.js:43-44 | `exec` finds the leftmost position where the pattern matches |
| Multipart.MatchedText | content/clases/NODE/clase-01/index.js:43 | a match spans the prefix, the captured text and the closing quote |
| Multipart.CaptureShortest | content/clases/NODE/clase-01/index.js:43 | a lazy capture contains no quote after its first character |
| Multipart.ExecSound | content/clases/NODE/clase-01/index.js:43-48 | a captured value is non-empty, on one line, quote-free after its first character, and occurs between the prefix and a quote in the header |
| Multipart.ExecFinds | content/clases/NODE/clase-01/index.js:43-44 | whenever the prefix is followed by a non-empty one-line value and a quote, the pattern matches |
| Multipart.Exec | content/clases/NODE/clase-01/index.js:43-48 | a captured value is never empty |
| Multipart.ExecMatches | content/clases/NODE/clase-01/index.js:43-48 | the pattern captures a value exactly when it matches at some position of the header |
| Multipart.CaptureSound | content/clases/NODE/clase-01/index.js:43 | the capture at a match is non-empty, on one line, quote-free after its first character, and sits between the prefix and a quote |
| Multipart.NameTakenFromFilename | content/clases/NODE/clase-01/index.js:43-44 | `name="` also matches inside `filename="`, so with no earlier `name="` the part's name is its file name |
| Multipart.NameInFilename | content/clases/NODE/clase-01/index.js:43-44 | `name="` occurs four characters into every `filename="` |
| Multipart.FirstNameMatch | content/clases/NODE/clase-01/index.js:43 | a match with no earlier occurrence of `name="` is the one `exec` finds |
| Multipart.PartLayout | content/clases/NODE/clase-01/index.js:34-51 | a part parses exactly when it holds a blank line; its headers come before the first blank line; its content is the trimmed text up to the second one; name and filename come from the disposition header |
| Multipart.ParsePart | content/clases/NODE/clase-01/index.js:34-51 | a part fails to parse (`rawContent.trim()` throws on `undefined`) exactly when it holds no blank line |
| Multipart.Boundary | content/clases/NODE/clase-01/index.js:59-60 | no boundary exactly when the Content-Type header is missing; otherwise it starts with "--" |
| Multipart.BoundaryText | content/clases/NODE/clase-01/index.js:60 | the boundary is "--" plus the text after the first "boundary=", up to any second one; without it, "--undefined" |
| Multipart.KeepParts | content/clases/NODE/clase-01/index.js:64 | every kept piece trims to neither "" nor "--" |
| Multipart.KeepPartsMembers | content/clases/NODE/clase-01/index.js:64 | a piece is kept exactly when it is a piece and does not trim to "" or "--" |
| Multipart.KeepPartsAppend | content/clases/NODE/clase-01/index.js:64 | filtering a concatenation is filtering each part and concatenating, so the kept pieces keep their order and repeats |
| Multipart.KeepPartsOne | content/clases/NODE/clase-01/index.js:64 | a single piece is kept exactly when it does not trim to "" or "--" |
| Multipart.Parts | content/clases/NODE/clase-01/index.js:62-64 | no parts exactly when the body is empty (`body \|\| null`); otherwise the filtered split |
| Multipart.Entries | content/clases/NODE/clase-01/index.js:72-74 | one entry per part: key its name (or "null"), value its content, or filename and content |
| Multipart.TraverseMeaning | content/clases/NODE/clase-01/index.js:68-69 | the loop fails exactly when some part fails to parse; otherwise it yields each part's parse, in order |
| Multipart.TraversePrefixFails | content/clases/NODE/clase-01/index.js:68-69 | a part that throws makes the whole loop throw |
| Multipart.TraverseStep | content/clases/NODE/clase-01/index.js:68-69 | a part that parses extends the parsed prefix by its parse |
| Multipart.TraverseStepFails | content/clases/NODE/clase-01/index.js:68-69 | a part that throws makes the loop up to it throw |
| Multipart.EntriesSnoc | content/clases/NODE/clase-01/index.js:72 | one more part is one more assignment |
| Multipart.LastPartWins | content/clases/NODE/clase-01/index.js:66-75 | the fields are named after the parts, and each holds the value of the last part with that name |
| Multipart.FormData | content/clases/NODE/clase-01/index.js:66-75 | the object is missing exactly when some part fails to parse |
| Multipart.BuildFormData | content/clases/NODE/clase-01/index.js:66-75 | the loop yields `FormData(parts)`: `None` when some part throws, otherwise the object assigned part by part |
| Multipart.ReadForm | content/clases/NODE/clase-01/index.js:59-77 | `None` without Content-Type or with an empty body; otherwise the form data of the filtered parts |
| NodePath.LastDot | lib/mdx.ts:49 | the position of the last '.' before `end`, or `None` when there is none |
| NodePath.ExtName | lib/mdx.ts:49 | the extension is empty or starts with the last '.', is a proper suffix, and holds no other '.'; it is non-empty exactly when the name is not ".." and has a '.' after its first character |
| NodePath.StripExt | lib/mdx.ts:82 | the stem followed by the extension is the name |
| NodePath.MdxRoundTrip | lib/mdx.ts:82 | a non-empty stem plus ".mdx" has extension ".mdx" and strips back to the stem |
| NodePath.MdxNames | lib/mdx.ts:49 | a name with extension ".mdx" is a non-empty stem followed by ".mdx" |
| FrontMatter.Strings | lib/schemas/clase.ts:6 | a list is accepted exactly when every item is a string, and then the strings are kept in order |
| FrontMatter.Valid | lib/schemas/clase.ts:3-10 | the schema: a string `title`; optional string `description` and `duration`; optional list of strings `languages`; optional `difficulty` among "beginner", "intermediate" and "advanced"; optional boolean `index` |
| FrontMatter.SafeParse | lib/schemas/clase.ts:3-10 | succeeds exactly on data the schema describes, and then keeps the data's title |
| FrontMatter.SafeParseAcceptsValid | lib/schemas/clase.ts:3-10 | `safeParse` succeeds exactly on the data the schema describes |
| FrontMatter.SafeParseFields | lib/schemas/clase.ts:3-10 | a parsed record carries the data's values: the title; `description`, `languages`, `difficulty` and `duration` each present exactly when its key is, holding that key's value (the list's strings in order for `languages`); `index` true unless the data says `false` |
| FrontMatter.SafeParseEncode | lib/schemas/clase.ts:3-10 | parsing a record's own front matter gives the record back |
| FrontMatter.EncodeStrings | lib/schemas/clase.ts:4-9 | a record's title, description, duration and index read back from its own front matter |
| FrontMatter.EncodeLanguages | lib/schemas/clase.ts:6 | a record's languages read back from its own front matter |
| FrontMatter.EncodeDifficulty | lib/schemas/clase.ts:7 | a record's difficulty reads back from its own front matter |
| FrontMatter.IndexDefaultsToTrue | lib/schemas/clase.ts:9 | a valid record without `index` parses with `index` true |
| Clases.MimeOfFile | lib/clases.ts:34-35 | octet-stream exactly when the extension is not in the table; otherwise the table's type |
| Clases.MimeType | lib/clases.ts:35 | octet-stream exactly when the extension is not a key of the table, since no table entry is octet-stream itself |
| Clases.MimeLookupIsExact | lib/clases.ts:7-17 | this table has no ".gif" and is case-sensitive |
| Clases.ClaseMeta | lib/clases.ts:44-66 | metadata exactly when the readme exists, parses and passes the schema, and then it is the schema's parse of the readme's data |
| Clases.GetClases | lib/clases.ts:81-101 | every listed item passes the filter, and is the item its folder maps to |
| Clases.ItemOf | lib/clases.ts:85-92 | the item's id is the folder, and `hasMDX` holds exactly when there is metadata, that is when the folder's readme exists, reads and passes the schema |
| Clases.GetClasesCons | lib/clases.ts:84-100 | the first folder's item comes first when it passes the filter, followed by the items of the rest, so the listing keeps folder order |
| Clases.GetClasesMembers | lib/clases.ts:84-100 | a folder's item is listed exactly when the folder is in the listing and has no valid metadata with `index: false` |
| Clases.FolderWithoutMetaListed | lib/clases.ts:94-96 | a folder without valid metadata is still listed, with `hasMDX` false |
| Clases.KeepSlugChars | lib/clases.ts:121 | only `a-z`, `0-9`, '-' and white space survive |
| Clases.KeepSlugCharsAppend | lib/clases.ts:121 | the replacement works character by character: it distributes over concatenation |
| Clases.KeepSlugCharsOne | lib/clases.ts:121 | one character is kept exactly when it is `a-z`, `0-9`, '-' or white space, and dropped otherwise |
| Clases.DashSpaces | lib/clases.ts:122 | no white space survives, and text made of slug characters and spaces becomes slug characters only |
| Clases.DashSpacesWord | lib/clases.ts:122 | characters other than white space are copied as they are, whatever follows them |
| Clases.DashSpacesRun | lib/clases.ts:122 | a non-empty run of white space between a word and text not starting with white space becomes exactly one '-' |
| Clases.Slugify | lib/clases.ts:119-122 | the heading id consists of `a-z`, `0-9` and '-' only; the steps it chains are pinned by the lemmas on `KeepSlugChars` and `DashSpaces` |
| Clases.KeepSlugCharsFixed | lib/clases.ts:121 | text made of slug characters is kept whole |
| Clases.DashSpacesFixed | lib/clases.ts:122 | text without white space, whatever its characters, is unchanged |
| Clases.LowerFixed | lib/clases.ts:120 | slug characters are already lower case |
| Clases.SlugifyIdempotent | lib/clases.ts:119-122 | the id of an id is itself |
| Clases.Hashes | lib/clases.ts:113 | the length of the run of '#' that starts the line |
| Clases.HeadingOf | lib/clases.ts:113-123 | a line is a heading exactly when it starts with 2 to 4 '#', then white space, then at least one character; the entry's depth is the count, its title the trimmed rest, and its url "#" plus the title's id |
| Clases.Toc | lib/clases.ts:112-126 | no more entries than lines |
| Clases.TocSnoc | lib/clases.ts:116-124 | one more line adds its entry at the end when it is a heading, and nothing otherwise |
| Clases.TocAppend | lib/clases.ts:116-124 | the entries of a document are those of its first part followed by those of the rest, so they come in document order |
| Clases.TocOne | lib/clases.ts:116-124 | a single line has an entry exactly when it is a heading, and that entry is its heading |
| Clases.TocEntriesWellFormed | lib/clases.ts:117-123 | every entry has depth 2 to 4 and its title's id as anchor |
| Clases.Lines | lib/clases.ts:113 | at least one line, and none contains a line terminator |
| Clases.LinesOneLine | lib/clases.ts:113 | text without a line terminator is a single line |
| Clases.LinesSplit | lib/clases.ts:113 | a line terminator ends the first line, and the lines of the rest follow it |
| Clases.ExtractToc | lib/clases.ts:112-126 | the loop yields `Toc(Lines(content))`: one entry per heading line, in document order |
| Mdx.MimeLookupIgnoresCase | lib/mdx.ts:180-192 | ".PNG" is served as a PNG, ".gif" is known, ".woff" is octet-stream |
| Mdx.ToLowerIdempotent | lib/mdx.ts:210 | lower-casing twice is lower-casing once |
| Mdx.MimeTablesAgree | lib/mdx.ts:210-211 | the case of the extension does not matter, and this table agrees with the other one wherever that one knows the extension |
| Mdx.MimeType | lib/mdx.ts:210-211 | octet-stream exactly when the lower-cased extension is not a key of the table |
| Mdx.ReadMetadataRoundTrip | lib/mdx.ts:63-73 | no metadata field is null, and metadata written under its source keys (`images`, `tag`, `team` included) reads back unchanged |
| Mdx.ReadMetadataDefaults | lib/mdx.ts:63-73 | empty front matter gives the defaults, with the folder name as id |
| Mdx.ReadMetadata | lib/mdx.ts:63-73 | no field is null, and the id is the data's `id` unless that is absent or null, when it is the folder name |
| Mdx.PresentValuesKept | lib/mdx.ts:65-71 | `??` keeps a present non-null value even when it is empty or false |
| Mdx.MdxFiles | lib/mdx.ts:44-50 | exactly the listed names whose extension is ".mdx" |
| Mdx.MdxFilesAppend | lib/mdx.ts:49 | filtering a concatenation is filtering each part and concatenating, so the files keep listing order |
| Mdx.MdxFilesOne | lib/mdx.ts:49 | a single name is kept exactly when its extension is ".mdx" |
| Mdx.MdxData | lib/mdx.ts:78-90 | one item per file in order: its metadata read from that file's front matter and folder, its slug the name without extension, its body the file's content; `None` exactly when some file cannot be read |
| Mdx.GetContent | lib/mdx.ts:44-97 | `None` exactly when the directory does not exist or one of its `.mdx` files cannot be read; otherwise every slug is non-empty and names a listed `.mdx` file, and the result is `MdxData` of the listing's `.mdx` files in listing order |
| Mdx.SlugsNameFiles | lib/mdx.ts:94-96 | every slug is non-empty, and the slug plus ".mdx" is a listed file |
| Mdx.SinglePath | lib/mdx.ts:111-117 | the file path has at least a directory and a file segment |
| Mdx.GetSingleContent | lib/mdx.ts:101-136 | `None` exactly when the file does not exist or cannot be read; otherwise its content is the file's |
| Mdx.SingleSlugSplit | lib/mdx.ts:104-129 | the directories plus the file slug give the request back; the path ends in the last segment plus ".mdx"; the page's slug is only that segment |
| Mdx.SingleFolderName | lib/mdx.ts:61 | for a nested slug, the metadata's folder name is the last directory of the slug |
| Mdx.SingleFolderNameTop | lib/mdx.ts:61 | for a slug of at most one segment, the metadata's folder name is the last segment of the initial path, or "content" when that path is empty |
| Mdx.ClasesOf | lib/mdx.ts:155-174 | no more classes than entries |
| Mdx.ClaseOf | lib/mdx.ts:156-169 | metadata exactly for a directory whose `README.mdx` exists and reads, and then none of its fields is null |
| Mdx.ClasesOfSnoc | lib/mdx.ts:155-174 | one more entry adds its metadata at the end when it is a directory with a readable `README.mdx`, and nothing otherwise |
| Mdx.ClasesOfAppend | lib/mdx.ts:155-174 | the classes of a listing are those of its first part followed by those of the rest, so they keep listing order |
| Mdx.ClasesOfMembers | lib/mdx.ts:155-174 | a metadata value is in the list exactly when some entry is a directory whose readable readme gives it |
| Mdx.ClasesOfCount | lib/mdx.ts:155-174 | there is one class per directory with a readable `README.mdx`; missing or broken readmes and plain files are skipped |
| Mdx.ClasesOfCountPrefix | lib/mdx.ts:155-174 | the classes of the first n entries are as many as the class directories among them |
| Mdx.ClasesCountStep | lib/mdx.ts:156 | one more entry adds one to the count exactly when it is a class directory |
| Mdx.GetClases | lib/mdx.ts:144-177 | `[]` without a root directory; otherwise the loop yields `ClasesOf(entries)`, in listing order with one entry per class directory |

## Left out

- I/O is not modelled:
  - the DOM, toasts, modals and view transitions;
  - `http.createServer`, `listen`, reading the request stream, and writing `request-log.json`;
  - console logging;
  - `app.listen`.
- Local storage, JSON, the file system and gray-matter become input values. Unparsable text, a missing key and a value that is not an array are `Storage`'s cases; an array is taken to hold well-formed records. A front-matter block that fails to parse is a `Broken` readme. A file that cannot be read is missing from the files map.
- `crypto.randomUUID()` and `new Date()` are parameters. Dates are integer milliseconds. An invalid date, which makes the sort comparator return NaN, is not modelled.
- The `getAll` sort is modelled as a stable insertion sort. Modern engines sort stably, so equal timestamps keep their stored order.
- Middlewares that call `next` later (asynchronously), or call it twice, are not modelled. A layer is a value that decides once.
- The fumadocs `getTableOfContents` path and the MDX compiler are outside this model. Only the fallback extraction is modelled.
- TodoStore.TodoState.GetAll: an array holding malformed records is not modelled. The source returns it as it is, or, when the sort comparator throws on a `null` entry, resets storage to `[]`.
- Clases.HeadingOf: matches one line at a time. The source's `\s+` can also span a line break ("##" followed by a new line and text), and that case is not modelled.
- Text.ToLower: lower-cases ASCII letters only. JavaScript's full Unicode case mapping is not modelled.
- NodePath.ExtName: models `path.extname` on a bare file name. The source applies it to joined paths. Directory separators and `path.join` normalisation (including ".." segments) are not modelled.
- Mdx.GetSingleContent: the path is kept as segments, not normalised. An empty slug array is shown by the slug `None` and a file named "undefined.mdx".
- TodoStore.TodoState.Create: a record created without a title or description gets "" for that field. In the source the key is missing from the object.
- TodoStore.LegacyBoard.constructor: the board starts from an already decoded list of records. The load `JSON.parse(localStorage.getItem("todos")) || []` is not modelled: a missing key (`null`) and any stored falsy value (`null`, `0`, `false`, `""`) fall back to `[]`, a stored truthy value that is not an array (such as `5` or an object) is kept as `data`, and text that is not JSON throws a SyntaxError that stops the script.
- TodoStore.LegacyBoard.ToggleArchive: requires the id to be present. The source throws a TypeError on `todo.isArchived` when it is not.
- TodoStore.LegacyBoard.ToggleComplete: requires the id to be present. The source throws a TypeError on `todo.completedAt` when it is not.
- SimpleTodo.TodoApp.RemoveTodo: the index is a natural number. The buttons only ever pass their own index, so the negative `splice` index is not modelled.
- Multipart.Entries: a part without a `name` parameter is stored under the key "null", which is how JavaScript turns `null` into a property key. Prototype keys such as `__proto__` are treated as ordinary keys.
- Zod internals (error formatting, and stripping unknown keys from the result) are not modelled. Only acceptance and the parsed values are.
- Console warnings in `getClaseMeta` and `getClases` are left out. A throwing read is modelled as a `Broken` readme.

=== FILE: clases.dfy ===
/**
 * The class catalog of `lib/clases.ts`: the MIME type of a static file,
 * the list of class folders with their validated metadata, and the
 * table of contents a page falls back to when the markdown toolchain
 * fails.
 */
module Clases {
  import opened Wrappers
  import Text
  import NodePath
  import FrontMatter

  // ---------------------------------------------------------------
  // MIME types
  // ---------------------------------------------------------------

  const OctetStream := "application/octet-stream"

  /** `MAP_MIME_TYPES`: keyed by extension, case-sensitively, with no ".gif". */
  const MimeTypes: map<string, string> := map[
    ".css" := "text/css",
    ".js" := "text/javascript",
    ".png" := "image/png",
    ".jpg" := "image/jpeg",
    ".jpeg" := "image/jpeg",
    ".svg" := "image/svg+xml",
    ".json" := "application/json",
    ".html" := "text/html",
    ".mdx" := "text/markdown; charset=utf-8"
  ]

  /** `MAP_MIME_TYPES[ext] || "application/octet-stream"`. */
  function MimeType(ext: string): (r: string)
    ensures r == OctetStream <==> ext !in MimeTypes
  {
    if ext in MimeTypes then MimeTypes[ext] else OctetStream
  }

  /** The MIME type `readFileFromSlug` serves a file name with. */
  function MimeOfFile(fileName: string): (r: string)
    ensures NodePath.ExtName(fileName) !in MimeTypes <==> r == OctetStream
    ensures r != OctetStream ==> r == MimeTypes[NodePath.ExtName(fileName)]
  {
    MimeType(NodePath.ExtName(fileName))
  }

  /** The lookup is exact: ".gif" is not in the table and ".PNG" is not ".png". */
  lemma MimeLookupIsExact()
    ensures MimeType(".gif") == OctetStream
    ensures MimeType(".PNG") == OctetStream && MimeType(".png") == "image/png"
  {
    assert ".gif" !in MimeTypes;
    assert ".PNG" !in MimeTypes;
  }

  // ---------------------------------------------------------------
  // The folder list
  // ---------------------------------------------------------------

  /** `getClaseMeta(folder)`: the validated front matter of its `README.mdx`, or `None`. */
  function ClaseMeta(readmes: map<string, FrontMatter.Readme>, folder: string): (r: Option<FrontMatter.ClaseMeta>)
    ensures r.Some? <==> folder in readmes && readmes[folder].Readable? && FrontMatter.Valid(readmes[folder].data)
    ensures r.Some? ==> r == FrontMatter.SafeParse(readmes[folder].data)
  {
    FrontMatter.SafeParseAcceptsValid(if folder in readmes && readmes[folder].Readable? then readmes[folder].data else map[]);
    if folder in readmes && readmes[folder].Readable? then FrontMatter.SafeParse(readmes[folder].data) else None
  }

  /** One entry of the list: the folder, whether it has metadata, and the metadata. */
  datatype Item = Item(id: string, hasMDX: bool, meta: Option<FrontMatter.ClaseMeta>)

  function ItemOf(readmes: map<string, FrontMatter.Readme>, folder: string): (r: Item)
    ensures r.id == folder && (r.hasMDX <==> r.meta.Some?)
    ensures r.hasMDX <==> folder in readmes && readmes[folder].Readable? && FrontMatter.Valid(readmes[folder].data)
  {
    var meta := ClaseMeta(readmes, folder);
    Item(folder, meta.Some?, meta)
  }

  /** The `filter`: a folder without metadata is shown; one with metadata is shown unless `index` is false. */
  predicate Listed(item: Item) {
    item.meta.None? || item.meta.value.index
  }

  /** `getClases()` over the directory listing `folders`: map, then filter, in listing order. */
  function GetClases(folders: seq<string>, readmes: map<string, FrontMatter.Readme>): (r: seq<Item>)
    ensures |r| <= |folders|
    ensures forall k :: 0 <= k < |r| ==> Listed(r[k]) && r[k] == ItemOf(readmes, r[k].id)
    decreases |folders|
  {
    if folders == [] then []
    else
      var item := ItemOf(readmes, folders[0]);
      var rest := GetClases(folders[1..], readmes);
      if Listed(item) then [item] + rest else rest
  }

  lemma GetClasesCons(folders: seq<string>, readmes: map<string, FrontMatter.Readme>)
    requires folders != []
    ensures GetClases(folders, readmes) ==
            (if Listed(ItemOf(readmes, folders[0])) then [ItemOf(readmes, folders[0])] else []) + GetClases(folders[1..], readmes)
  {
  }

  /**
   * A folder is listed exactly when it is in the listing and does not
   * carry valid metadata with `index: false`.
   */
  lemma {:induction false} GetClasesMembers(folders: seq<string>, readmes: map<string, FrontMatter.Readme>, folder: string)
    ensures ItemOf(readmes, folder) in GetClases(folders, readmes) <==> folder in folders && Listed(ItemOf(readmes, folder))
    decreases |folders|
  {
    if folders != [] {
      GetClasesMembers(folders[1..], readmes, folder);
      GetClasesCons(folders, readmes);
      assert folder in folders <==> folder == folders[0] || folder in folders[1..];
    }
  }

  /** A folder without a readable, valid `README.mdx` is still listed, with `hasMDX` false. */
  lemma FolderWithoutMetaListed(readmes: map<string, FrontMatter.Readme>, folder: string)
    requires folder !in readmes || !readmes[folder].Readable? || !FrontMatter.Valid(readmes[folder].data)
    ensures Listed(ItemOf(readmes, folder)) && !ItemOf(readmes, folder).hasMDX
  {
  }

  // ---------------------------------------------------------------
  // The fallback table of contents
  // ---------------------------------------------------------------

  /** One entry: the heading text, its anchor and its level. */
  datatype TocEntry = TocEntry(title: string, url: string, depth: nat)

  predicate SlugChar(c: char) {
    ('a' <= c <= 'z') || ('0' <= c <= '9') || c == '-'
  }

  /** `.replace(/[^a-z0-9\s-]/g, "")`. */
  function KeepSlugChars(s: string): (r: string)
    ensures forall k :: 0 <= k < |r| ==> SlugChar(r[k]) || Text.IsSpace(r[k])
    ensures |r| <= |s|
  {
    if s == [] then ""
    else (if SlugChar(s[0]) || Text.IsSpace(s[0]) then [s[0]] else []) + KeepSlugChars(s[1..])
  }

  /** `.replace(/\s+/g, "-")`: each run of white space becomes one '-'. */
  function DashSpaces(s: string): (r: string)
    ensures forall k :: 0 <= k < |r| ==> !Text.IsSpace(r[k])
    ensures (forall k :: 0 <= k < |s| ==> SlugChar(s[k]) || Text.IsSpace(s[k])) ==> forall k :: 0 <= k < |r| ==> SlugChar(r[k])
    decreases |s|
  {
    if s == [] then ""
    else if Text.IsSpace(s[0]) then "-" + DashSpaces(Text.TrimStart(s))
    else [s[0]] + DashSpaces(s[1..])
  }

  /** The heading id: lower-cased, stripped of other characters, white space runs turned into '-'. */
  function Slugify(title: string): (r: string)
    ensures forall k :: 0 <= k < |r| ==> SlugChar(r[k])
  {
    DashSpaces(KeepSlugChars(Text.ToLower(title)))
  }

  lemma {:induction false} KeepSlugCharsFixed(s: string)
    requires forall k :: 0 <= k < |s| ==> SlugChar(s[k])
    ensures KeepSlugChars(s) == s
    decreases |s|
  {
    if s != [] {
      KeepSlugCharsFixed(s[1..]);
    }
  }

  /** Text without white space, whatever its characters, is left as it is. */
  lemma {:induction false} DashSpacesFixed(s: string)
    requires forall k :: 0 <= k < |s| ==> !Text.IsSpace(s[k])
    ensures DashSpaces(s) == s
    decreases |s|
  {
    if s != [] {
      DashSpacesFixed(s[1..]);
    }
  }

  /** A character other than white space is copied. */
  lemma DashSpacesCons(c: char, s: string)
    requires !Text.IsSpace(c)
    ensures DashSpaces([c] + s) == [c] + DashSpaces(s)
  {
    assert ([c] + s)[1..] == s;
  }

  /** Characters other than white space are copied, whatever follows them. */
  lemma {:induction false} DashSpacesWord(a: string, s: string)
    requires forall k :: 0 <= k < |a| ==> !Text.IsSpace(a[k])
    ensures DashSpaces(a + s) == a + DashSpaces(s)
    decreases |a|
  {
    if a == [] {
      assert a + s == s;
    } else {
      Text.ConsAppend(a, s);
      DashSpacesCons(a[0], a[1..] + s);
      DashSpacesWord(a[1..], s);
      Text.ConsAppend(a, DashSpaces(s));
    }
  }

  /** A leading run of white space becomes one '-'. */
  lemma DashSpacesLeadingRun(w: string, b: string)
    requires w != [] && Text.AllSpace(w)
    requires b == [] || !Text.IsSpace(b[0])
    ensures DashSpaces(w + b) == "-" + DashSpaces(b)
  {
    Text.TrimStartSpaces(w, b);
    assert (w + b)[0] == w[0];
  }

  /**
   * A run of white space becomes exactly one '-': the text before it is
   * kept, and the replacement goes on after the run.
   */
  lemma DashSpacesRun(a: string, w: string, b: string)
    requires forall k :: 0 <= k < |a| ==> !Text.IsSpace(a[k])
    requires w != [] && Text.AllSpace(w)
    requires b == [] || !Text.IsSpace(b[0])
    ensures DashSpaces(a + w + b) == a + "-" + DashSpaces(b)
  {
    Text.AppendAssoc(a, w, b);
    DashSpacesWord(a, w + b);
    DashSpacesLeadingRun(w, b);
    Text.AppendAssoc(a, "-", DashSpaces(b));
  }

  /** `replace` with a character class works character by character: it distributes over concatenation. */
  lemma {:induction false} KeepSlugCharsAppend(a: string, b: string)
    ensures KeepSlugChars(a + b) == KeepSlugChars(a) + KeepSlugChars(b)
    decreases |a|
  {
    if a == [] {
      assert a + b == b;
    } else {
      assert (a + b)[1..] == a[1..] + b;
      KeepSlugCharsAppend(a[1..], b);
    }
  }

  /** One character is kept exactly when it is a-z, 0-9, '-' or white space. */
  lemma KeepSlugCharsOne(c: char)
    ensures KeepSlugChars([c]) == if SlugChar(c) || Text.IsSpace(c) then [c] else []
  {
  }

  lemma {:induction false} LowerFixed(s: string)
    requires forall k :: 0 <= k < |s| ==> SlugChar(s[k])
    ensures Text.ToLower(s) == s
  {
  }

  /** A heading id is its own id: slugifying twice is slugifying once. */
  lemma SlugifyIdempotent(title: string)
    ensures Slugify(Slugify(title)) == Slugify(title)
  {
    var id := Slugify(title);
    LowerFixed(id);
    KeepSlugCharsFixed(id);
    DashSpacesFixed(id);
  }

  /** The number of '#' that start `line`. */
  function Hashes(line: string): (n: nat)
    ensures n <= |line| && forall k :: 0 <= k < n ==> line[k] == '#'
    ensures n < |line| ==> line[n] != '#'
  {
    if line != [] && line[0] == '#' then 1 + Hashes(line[1..]) else 0
  }

  /**
   * `/^(#{2,4})\s+(.+)$/` on one line: two to four '#', white space, and
   * at least one more character. The entry's title is the trimmed rest.
   */
  function HeadingOf(line: string): (r: Option<TocEntry>)
    ensures r.Some? ==> 2 <= r.value.depth <= 4 && r.value.depth == Hashes(line)
    ensures r.Some? ==> r.value.title == Text.Trim(line[r.value.depth..]) && r.value.url == "#" + Slugify(r.value.title)
    ensures r.Some? <==> 2 <= Hashes(line) <= 4 && Hashes(line) + 2 <= |line| && Text.IsSpace(line[Hashes(line)])
  {
    var n := Hashes(line);
    if 2 <= n <= 4 && n + 2 <= |line| && Text.IsSpace(line[n]) then
      var title := Text.Trim(line[n..]);
      Some(TocEntry(title, "#" + Slugify(title), n))
    else None
  }

  /** The entries of the lines, in document order. */
  function Toc(lines: seq<string>): (r: seq<TocEntry>)
    ensures |r| <= |lines|
    decreases |lines|
  {
    if lines == [] then []
    else
      var prior := Toc(lines[..|lines| - 1]);
      match HeadingOf(lines[|lines| - 1])
      case None => prior
      case Some(e) => prior + [e]
  }

  /** One more line adds its entry, if it is a heading, at the end. */
  lemma TocSnoc(lines: seq<string>, line: string)
    ensures Toc(lines + [line]) == Toc(lines) + if HeadingOf(line).Some? then [HeadingOf(line).value] else []
  {
    assert (lines + [line])[..|lines|] == lines;
  }

  /** The entries of a document are the entries of its first part, then those of the rest. */
  lemma {:induction false} TocAppend(a: seq<string>, b: seq<string>)
    ensures Toc(a + b) == Toc(a) + Toc(b)
    decreases |b|
  {
    if b == [] {
      assert a + b == a;
    } else {
      var init, last := b[..|b| - 1], b[|b| - 1];
      assert b == init + [last];
      assert a + b == (a + init) + [last];
      TocAppend(a, init);
      TocSnoc(a + init, last);
      TocSnoc(init, last);
    }
  }

  /** A line contributes an entry exactly when it is a heading. */
  lemma TocOne(line: string)
    ensures Toc([line]) == if HeadingOf(line).Some? then [HeadingOf(line).value] else []
  {
    assert [line][..0] == [];
  }

  /** Every entry is a heading of level 2 to 4 whose anchor is its title's id. */
  lemma {:induction false} TocEntriesWellFormed(lines: seq<string>)
    ensures forall k :: 0 <= k < |Toc(lines)| ==>
              2 <= Toc(lines)[k].depth <= 4 && Toc(lines)[k].url == "#" + Slugify(Toc(lines)[k].title)
    decreases |lines|
  {
    if lines != [] {
      TocEntriesWellFormed(lines[..|lines| - 1]);
    }
  }

  /** The lines of the content: the text between line terminators. */
  function Lines(content: string): (r: seq<string>)
    ensures |r| >= 1
    ensures forall k :: 0 <= k < |r| ==> Text.OnOneLine(r[k])
    decreases |content|
  {
    if content == [] then [""]
    else
      var rest := Lines(content[1..]);
      if Text.IsLineTerminator(content[0]) then [""] + rest
      else [[content[0]] + rest[0]] + rest[1..]
  }

  /** Text without a line terminator is one line. */
  lemma {:induction false} LinesOneLine(a: string)
    requires Text.OnOneLine(a)
    ensures Lines(a) == [a]
    decreases |a|
  {
    if a != [] {
      LinesOneLine(a[1..]);
      assert [a[0]] + a[1..] == a;
    }
  }

  /** A line terminator ends the first line; the lines of the rest follow. */
  lemma {:induction false} LinesSplit(a: string, t: char, b: string)
    requires Text.OnOneLine(a) && Text.IsLineTerminator(t)
    ensures Lines(a + [t] + b) == [a] + Lines(b)
    decreases |a|
  {
    if a == [] {
      assert (a + [t] + b)[1..] == b;
    } else {
      assert (a + [t] + b)[1..] == a[1..] + [t] + b;
      LinesSplit(a[1..], t, b);
      assert [a[0]] + a[1..] == a;
    }
  }

  /** The `while` loop over the heading matches, pushing one entry per heading. */
  method ExtractToc(content: string) returns (toc: seq<TocEntry>)
    ensures toc == Toc(Lines(content))
  {
    var lines := Lines(content);
    toc := [];
    var i := 0;
    while i < |lines|
      invariant i <= |lines|
      invariant toc == Toc(lines[..i])
    {
      assert lines[..i + 1][..i] == lines[..i];
      var heading := HeadingOf(lines[i]);
      if heading.Some? {
        toc := toc + [heading.value];
      }
      i := i + 1;
    }
    assert lines[..i] == lines;
  }
}

=== FILE: front_matter.dfy ===
/**
 * Front matter as the YAML reader hands it over, and the class schema
 * that validates it: a required string `title`, optional `description`,
 * `languages`, `difficulty` and `duration`, and a boolean `index` that
 * defaults to true.
 */
module FrontMatter {
  import opened Wrappers

  /** A YAML value. */
  datatype Value =
    | Null
    | Bool(b: bool)
    | Num(n: int)
    | Str(s: string)
    | List(items: seq<Value>)
    | Obj(fields: map<string, Value>)

  /** The front matter object: a key not in the map is `undefined`. */
  type Data = map<string, Value>

  /** What reading a class folder's `README.mdx` gives. */
  datatype Readme =
    | Missing                                   // no such file
    | Broken                                    // reading or parsing throws
    | Readable(data: Data, content: string)     // front matter and body

  datatype Difficulty = Beginner | Intermediate | Advanced

  /** The validated front matter: absent optional fields are `None`. */
  datatype ClaseMeta = ClaseMeta(
    title: string,
    description: Option<string>,
    languages: Option<seq<string>>,
    difficulty: Option<Difficulty>,
    duration: Option<string>,
    index: bool)

  // ---------------------------------------------------------------
  // The schema as a condition on the data
  // ---------------------------------------------------------------

  predicate IsStringList(v: Value) {
    v.List? && forall k :: 0 <= k < |v.items| ==> v.items[k].Str?
  }

  predicate IsDifficulty(v: Value) {
    v == Str("beginner") || v == Str("intermediate") || v == Str("advanced")
  }

  /**
   * `ClaseFrontMatterSchema` accepts the data: `title` a string; each
   * optional field absent or of its type (`null` is not absent); `index`
   * absent or a boolean. Other keys are ignored.
   */
  predicate Valid(data: Data) {
    && "title" in data && data["title"].Str?
    && ("description" in data ==> data["description"].Str?)
    && ("languages" in data ==> IsStringList(data["languages"]))
    && ("difficulty" in data ==> IsDifficulty(data["difficulty"]))
    && ("duration" in data ==> data["duration"].Str?)
    && ("index" in data ==> data["index"].Bool?)
  }

  // ---------------------------------------------------------------
  // The schema as a parser
  // ---------------------------------------------------------------

  /** The strings of a list of strings; `None` when an item is not a string. */
  function Strings(items: seq<Value>): (r: Option<seq<string>>)
    ensures r.Some? <==> forall k :: 0 <= k < |items| ==> items[k].Str?
    ensures r.Some? ==> |r.value| == |items| && forall k :: 0 <= k < |items| ==> items[k] == Str(r.value[k])
  {
    if items == [] then Some([])
    else
      match Strings(items[1..])
      case None => None
      case Some(rest) =>
        if items[0].Str? then
          assert forall k :: 1 <= k < |items| ==> items[k] == items[1..][k - 1];
          Some([items[0].s] + rest)
        else None
  }

  function DifficultyOf(s: string): Option<Difficulty> {
    if s == "beginner" then Some(Beginner)
    else if s == "intermediate" then Some(Intermediate)
    else if s == "advanced" then Some(Advanced)
    else None
  }

  function DifficultyName(d: Difficulty): string {
    match d
    case Beginner => "beginner"
    case Intermediate => "intermediate"
    case Advanced => "advanced"
  }

  /** An optional string field: `None` when invalid, `Some(None)` when absent. */
  function OptionalString(data: Data, key: string): Option<Option<string>> {
    if key !in data then Some(None)
    else if data[key].Str? then Some(Some(data[key].s))
    else None
  }

  function OptionalStrings(data: Data, key: string): Option<Option<seq<string>>> {
    if key !in data then Some(None)
    else if data[key].List? && Strings(data[key].items).Some? then Some(Some(Strings(data[key].items).value))
    else None
  }

  function OptionalDifficulty(data: Data, key: string): Option<Option<Difficulty>> {
    if key !in data then Some(None)
    else if data[key].Str? && DifficultyOf(data[key].s).Some? then Some(DifficultyOf(data[key].s))
    else None
  }

  /** `z.boolean().default(true)`: an absent value becomes `true`. */
  function DefaultedBool(data: Data, key: string): Option<bool> {
    if key !in data then Some(true)
    else if data[key].Bool? then Some(data[key].b)
    else None
  }

  /** `ClaseFrontMatterSchema.safeParse(data)`: the parsed record, or `None` on failure. */
  function SafeParse(data: Data): (r: Option<ClaseMeta>)
    ensures r.Some? <==> Valid(data)
    ensures r.Some? ==> Str(r.value.title) == data["title"]
  {
    if "title" !in data || !data["title"].Str? then None
    else
      var description := OptionalString(data, "description");
      var languages := OptionalStrings(data, "languages");
      var difficulty := OptionalDifficulty(data, "difficulty");
      var duration := OptionalString(data, "duration");
      var index := DefaultedBool(data, "index");
      if description.None? || languages.None? || difficulty.None? || duration.None? || index.None? then None
      else Some(ClaseMeta(data["title"].s, description.value, languages.value, difficulty.value, duration.value, index.value))
  }

  /** The parser accepts exactly the data the schema describes. */
  lemma SafeParseAcceptsValid(data: Data)
    ensures SafeParse(data).Some? <==> Valid(data)
  {
    if "languages" in data && data["languages"].List? {
      var _ := Strings(data["languages"].items);
    }
  }

  /**
   * A parsed record carries the data's values, and `index` is `true`
   * unless the data holds `index: false`.
   */
  lemma SafeParseFields(data: Data)
    requires SafeParse(data).Some?
    ensures var m := SafeParse(data).value;
            && Str(m.title) == data["title"]
            && (m.description.Some? <==> "description" in data)
            && (m.description.Some? ==> Str(m.description.value) == data["description"])
            && (m.duration.Some? <==> "duration" in data)
            && (m.duration.Some? ==> Str(m.duration.value) == data["duration"])
            && (m.difficulty.Some? <==> "difficulty" in data)
            && (m.difficulty.Some? ==> Str(DifficultyName(m.difficulty.value)) == data["difficulty"])
            && (m.languages.Some? <==> "languages" in data)
            && (m.languages.Some? ==> Strings(data["languages"].items) == m.languages)
            && (m.index <==> "index" !in data || data["index"] == Bool(true))
  {
  }

  /** The front matter a record is written back as: one key per present field. */
  function Encode(m: ClaseMeta): Data {
    var base := map["title" := Str(m.title)];
    var d1 := if m.description.Some? then base["description" := Str(m.description.value)] else base;
    var d2 := if m.languages.Some? then d1["languages" := List(seq(|m.languages.value|, k requires 0 <= k < |m.languages.value| => Str(m.languages.value[k])))] else d1;
    var d3 := if m.difficulty.Some? then d2["difficulty" := Str(DifficultyName(m.difficulty.value))] else d2;
    var d4 := if m.duration.Some? then d3["duration" := Str(m.duration.value)] else d3;
    d4["index" := Bool(m.index)]
  }

  /** Parsing a record's own front matter gives the record back. */
  lemma SafeParseEncode(m: ClaseMeta)
    ensures SafeParse(Encode(m)) == Some(m)
  {
    EncodeStrings(m);
    EncodeLanguages(m);
    EncodeDifficulty(m);
  }

  /** The string and boolean fields read back from a record's front matter. */
  lemma EncodeStrings(m: ClaseMeta)
    ensures var data := Encode(m);
            && "title" in data && data["title"] == Str(m.title)
            && OptionalString(data, "description") == Some(m.description)
            && OptionalString(data, "duration") == Some(m.duration)
            && DefaultedBool(data, "index") == Some(m.index)
  {
  }

  /** The languages read back from a record's front matter. */
  lemma EncodeLanguages(m: ClaseMeta)
    ensures OptionalStrings(Encode(m), "languages") == Some(m.languages)
  {
    if m.languages.Some? {
      var data := Encode(m);
      var r := Strings(data["languages"].items);
      assert r.value == m.languages.value;
    }
  }

  /** The difficulty read back from a record's front matter. */
  lemma EncodeDifficulty(m: ClaseMeta)
    ensures OptionalDifficulty(Encode(m), "difficulty") == Some(m.difficulty)
  {
    if m.difficulty.Some? {
      assert DifficultyOf(DifficultyName(m.difficulty.value)) == m.difficulty;
    }
  }

  /** An absent `index` defaults to true, so a valid record without one is listed. */
  lemma IndexDefaultsToTrue(data: Data)
    requires Valid(data) && "index" !in data
    ensures SafeParse(data).Some? && SafeParse(data).value.index
  {
    SafeParseAcceptsValid(data);
  }
}

=== FILE: mdx.dfy ===
/**
 * The MDX content reader of `lib/mdx.ts`: metadata with defaults, the
 * `.mdx` files of a directory and their slugs, a single page addressed
 * by a slug, the class list, and the MIME type of a static file.
 *
 * The file system is an input: a directory listing is a `seq`, and the
 * files that can be read are maps from their names (or path segments)
 * to their parsed front matter and body.
 */
module Mdx {
  import opened Wrappers
  import Text
  import NodePath
  import FrontMatter
  import Clases

  // ---------------------------------------------------------------
  // MIME types
  // ---------------------------------------------------------------

  /** This file's `MAP_MIME_TYPES`: the other table plus ".gif". */
  const MimeTypes: map<string, string> := Clases.MimeTypes[".gif" := "image/gif"]

  /** `MAP_MIME_TYPES[ext.toLowerCase()] || "application/octet-stream"`. */
  function MimeType(ext: string): (r: string)
    ensures r == Clases.OctetStream <==> Text.ToLower(ext) !in MimeTypes
  {
    var key := Text.ToLower(ext);
    if key in MimeTypes then MimeTypes[key] else Clases.OctetStream
  }

  /** The lookup ignores case: ".PNG" is ".png", and ".gif" is known. */
  lemma MimeLookupIgnoresCase()
    ensures MimeType(".PNG") == "image/png"
    ensures MimeType(".gif") == "image/gif"
    ensures MimeType(".woff") == Clases.OctetStream
  {
    assert Text.ToLower(".PNG") == ".png";
    assert Text.ToLower(".gif") == ".gif";
    assert Text.ToLower(".woff") == ".woff";
  }

  /** Lower-casing twice is lower-casing once. */
  lemma ToLowerIdempotent(s: string)
    ensures Text.ToLower(Text.ToLower(s)) == Text.ToLower(s)
  {
  }

  /**
   * This lookup answers the same for an extension in any case, and agrees
   * with the case-sensitive table wherever that one knows the extension.
   */
  lemma MimeTablesAgree(ext: string)
    ensures MimeType(ext) == MimeType(Text.ToLower(ext))
    ensures ext in Clases.MimeTypes ==> MimeType(ext) == Clases.MimeType(ext)
  {
    ToLowerIdempotent(ext);
    if ext in Clases.MimeTypes {
      assert Text.ToLower(ext) == ext;
    }
  }

  // ---------------------------------------------------------------
  // Metadata
  // ---------------------------------------------------------------

  /** The page metadata: each field holds the front matter's raw value or its default. */
  datatype Metadata = Metadata(
    id: FrontMatter.Value, title: FrontMatter.Value, shortName: FrontMatter.Value,
    description: FrontMatter.Value, languages: FrontMatter.Value, difficulty: FrontMatter.Value,
    duration: FrontMatter.Value, index: FrontMatter.Value, isNew: FrontMatter.Value)

  /** `data[key] ?? fallback`: the fallback for a missing key and for `null`. */
  function Or(data: FrontMatter.Data, key: string, fallback: FrontMatter.Value): FrontMatter.Value {
    if key in data && data[key] != FrontMatter.Null then data[key] else fallback
  }

  /** `readMDXFile`'s metadata for front matter `data` in the folder `folderName`. */
  function ReadMetadata(data: FrontMatter.Data, folderName: string): (r: Metadata)
    ensures NoNulls(r)
    ensures "id" !in data || data["id"] == FrontMatter.Null ==> r.id == FrontMatter.Str(folderName)
    ensures "id" in data && data["id"] != FrontMatter.Null ==> r.id == data["id"]
  {
    Metadata(
      Or(data, "id", FrontMatter.Str(folderName)),
      Or(data, "title", FrontMatter.Str("")),
      Or(data, "shortName", FrontMatter.Str("Clase")),
      Or(data, "description", FrontMatter.Str("")),
      Or(data, "languages", FrontMatter.List([])),
      Or(data, "images", FrontMatter.List([])),
      Or(data, "tag", FrontMatter.Str("")),
      Or(data, "team", FrontMatter.Bool(true)),
      Or(data, "isNew", FrontMatter.Bool(false)))
  }

  /** No metadata field is `null`. */
  predicate NoNulls(m: Metadata) {
    && m.id != FrontMatter.Null && m.title != FrontMatter.Null && m.shortName != FrontMatter.Null
    && m.description != FrontMatter.Null && m.languages != FrontMatter.Null && m.difficulty != FrontMatter.Null
    && m.duration != FrontMatter.Null && m.index != FrontMatter.Null && m.isNew != FrontMatter.Null
  }

  /**
   * The front matter keys the fields are read from: `difficulty` comes
   * from `images`, `duration` from `tag` and `index` from `team`.
   */
  function SourceKeys(m: Metadata): FrontMatter.Data {
    map["id" := m.id, "title" := m.title, "shortName" := m.shortName, "description" := m.description,
        "languages" := m.languages, "images" := m.difficulty, "tag" := m.duration, "team" := m.index,
        "isNew" := m.isNew]
  }

  /**
   * Metadata is never `null`, and reading back metadata written under its
   * source keys gives it back, whatever the folder.
   */
  lemma ReadMetadataRoundTrip(m: Metadata, data: FrontMatter.Data, folderName: string)
    ensures NoNulls(ReadMetadata(data, folderName))
    ensures NoNulls(m) ==> ReadMetadata(SourceKeys(m), folderName) == m
  {
  }

  /** Empty front matter gives the defaults, with the folder as id. */
  lemma ReadMetadataDefaults(folderName: string)
    ensures ReadMetadata(map[], folderName) == Metadata(
              FrontMatter.Str(folderName), FrontMatter.Str(""), FrontMatter.Str("Clase"), FrontMatter.Str(""),
              FrontMatter.List([]), FrontMatter.List([]), FrontMatter.Str(""), FrontMatter.Bool(true), FrontMatter.Bool(false))
  {
  }

  /** A present value is kept even when it is empty; only a missing or `null` one is replaced. */
  lemma PresentValuesKept(data: FrontMatter.Data, folderName: string)
    requires "title" in data && data["title"] != FrontMatter.Null
    requires "team" in data && data["team"] != FrontMatter.Null
    ensures ReadMetadata(data, folderName).title == data["title"]
    ensures ReadMetadata(data, folderName).index == data["team"]
  {
  }

  // ---------------------------------------------------------------
  // Directory contents
  // ---------------------------------------------------------------

  /** What the front matter reader gives for a file: its data and its body. */
  datatype Parsed = Parsed(data: FrontMatter.Data, content: string)

  /** A page: its metadata, its slug and its body. */
  datatype Item = Item(metadata: Metadata, slug: string, content: string)

  /** The filter of `getMDXFiles`: the extension is exactly ".mdx". */
  predicate IsMdx(name: string) {
    NodePath.ExtName(name) == ".mdx"
  }

  /** `getMDXFiles`: the listed names whose extension is exactly ".mdx", in listing order. */
  function MdxFiles(listing: seq<string>): (r: seq<string>)
    ensures forall k :: 0 <= k < |r| ==> IsMdx(r[k]) && r[k] in listing
    ensures forall k :: 0 <= k < |listing| && IsMdx(listing[k]) ==> listing[k] in r
  {
    if listing == [] then []
    else
      var rest := MdxFiles(listing[1..]);
      assert listing == [listing[0]] + listing[1..];
      if IsMdx(listing[0]) then [listing[0]] + rest else rest
  }

  /** The filter keeps listing order: it distributes over concatenation. */
  lemma {:induction false} MdxFilesAppend(a: seq<string>, b: seq<string>)
    ensures MdxFiles(a + b) == MdxFiles(a) + MdxFiles(b)
    decreases |a|
  {
    if a == [] {
      assert a + b == b;
    } else {
      assert (a + b)[0] == a[0] && (a + b)[1..] == a[1..] + b;
      MdxFilesAppend(a[1..], b);
    }
  }

  /** One name is kept exactly when its extension is ".mdx". */
  lemma MdxFilesOne(name: string)
    ensures MdxFiles([name]) == if IsMdx(name) then [name] else []
  {
    assert [name][1..] == [];
  }

  /**
   * `getMDXData(dir)` for the directory named `dirName`: one item per
   * `.mdx` file, its slug the name without ".mdx". `None` when a listed
   * file cannot be read, which throws.
   */
  function MdxData(dirName: string, names: seq<string>, files: map<string, Parsed>): (r: Option<seq<Item>>)
    ensures r.Some? ==> |r.value| == |names|
    ensures r.None? <==> exists k :: 0 <= k < |names| && names[k] !in files
    ensures r.Some? ==> forall k :: 0 <= k < |names| ==>
              r.value[k] == Item(ReadMetadata(files[names[k]].data, dirName), NodePath.StripExt(names[k]), files[names[k]].content)
  {
    if names == [] then Some([])
    else if names[0] !in files then None
    else
      var p := files[names[0]];
      var item := Item(ReadMetadata(p.data, dirName), NodePath.StripExt(names[0]), p.content);
      match MdxData(dirName, names[1..], files)
      case None =>
        var k :| 0 <= k < |names[1..]| && names[1..][k] !in files;
        assert names[k + 1] !in files;
        None
      case Some(rest) =>
        assert forall k :: 1 <= k < |names| ==> names[k] == names[1..][k - 1];
        Some([item] + rest)
  }

  /** `getContent` over a listing: every slug followed by ".mdx" names a listed file. */
  lemma SlugsNameFiles(dirName: string, listing: seq<string>, files: map<string, Parsed>)
    requires MdxData(dirName, MdxFiles(listing), files).Some?
    ensures var items := MdxData(dirName, MdxFiles(listing), files).value;
            forall k :: 0 <= k < |items| ==> items[k].slug != [] && items[k].slug + ".mdx" in listing
  {
    var names := MdxFiles(listing);
    var items := MdxData(dirName, names, files).value;
    forall k | 0 <= k < |items| ensures items[k].slug != [] && items[k].slug + ".mdx" in listing {
      NodePath.MdxNames(names[k]);
    }
  }

  /**
   * `getContent(type)`: `None` when the directory does not exist, or when
   * one of its `.mdx` files cannot be read; both throw.
   */
  function GetContent(dirName: string, dirExists: bool, listing: seq<string>, files: map<string, Parsed>): (r: Option<seq<Item>>)
    ensures r.None? <==> !dirExists || exists k :: 0 <= k < |MdxFiles(listing)| && MdxFiles(listing)[k] !in files
    ensures r.Some? ==> forall k :: 0 <= k < |r.value| ==> r.value[k].slug != [] && r.value[k].slug + ".mdx" in listing
    ensures dirExists ==> r == MdxData(dirName, MdxFiles(listing), files)
  {
    if !dirExists then None
    else
      var r := MdxData(dirName, MdxFiles(listing), files);
      if r.Some? then SlugsNameFiles(dirName, listing, files); r else r
  }

  // ---------------------------------------------------------------
  // A single page
  // ---------------------------------------------------------------

  /** A page read by slug; the slug is `None` when the slug array was empty (`undefined`). */
  datatype Single = Single(metadata: Metadata, slug: Option<string>, content: string)

  /** `slug[slug.length - 1]`, `undefined` for an empty array. */
  function FileSlug(slug: seq<string>): Option<string> {
    if slug == [] then None else Some(slug[|slug| - 1])
  }

  /** `slug.slice(0, -1)`. */
  function ContentPath(slug: seq<string>): seq<string> {
    if slug == [] then [] else slug[..|slug| - 1]
  }

  /** The path segments of the file, from the working directory; `undefined` prints as "undefined". */
  function SinglePath(initialPath: seq<string>, slug: seq<string>): (r: seq<string>)
    ensures |r| >= 2
  {
    ["content"] + initialPath + ContentPath(slug) + [FileSlug(slug).GetOr("undefined") + ".mdx"]
  }

  /**
   * `getSingleContent(initialPath, slug)`: `None` when the file does not
   * exist or cannot be read. The folder name is the segment that holds
   * the file.
   */
  function GetSingleContent(initialPath: seq<string>, slug: seq<string>, files: map<seq<string>, Parsed>): (r: Option<Single>)
    ensures r.None? <==> SinglePath(initialPath, slug) !in files
    ensures r.Some? ==> r.value.content == files[SinglePath(initialPath, slug)].content
  {
    var path := SinglePath(initialPath, slug);
    if path !in files then None
    else
      var p := files[path];
      Some(Single(ReadMetadata(p.data, path[|path| - 2]), FileSlug(slug), p.content))
  }

  /**
   * For a non-empty slug, the directories and the returned slug give the
   * request back: the last segment names the file, the others are the
   * directories under the initial path, and the page's slug is only the
   * last segment.
   */
  lemma SingleSlugSplit(initialPath: seq<string>, slug: seq<string>, files: map<seq<string>, Parsed>)
    requires slug != []
    ensures ContentPath(slug) + [FileSlug(slug).value] == slug
    ensures SinglePath(initialPath, slug) == ["content"] + initialPath + slug[..|slug| - 1] + [slug[|slug| - 1] + ".mdx"]
    ensures GetSingleContent(initialPath, slug, files).Some? ==> GetSingleContent(initialPath, slug, files).value.slug == Some(slug[|slug| - 1])
  {
  }

  /** For a page in a sub-directory, the folder name in the metadata's default id is that directory. */
  lemma SingleFolderName(initialPath: seq<string>, slug: seq<string>, files: map<seq<string>, Parsed>)
    requires |slug| >= 2 && GetSingleContent(initialPath, slug, files).Some?
    ensures var path := SinglePath(initialPath, slug);
            GetSingleContent(initialPath, slug, files).value.metadata == ReadMetadata(files[path].data, slug[|slug| - 2])
  {
    var path := SinglePath(initialPath, slug);
    assert path[|path| - 2] == slug[|slug| - 2];
  }

  /**
   * For a page directly under the initial path, the folder name is the
   * last segment of that path, or "content" when the path is empty.
   */
  lemma SingleFolderNameTop(initialPath: seq<string>, slug: seq<string>, files: map<seq<string>, Parsed>)
    requires |slug| <= 1 && GetSingleContent(initialPath, slug, files).Some?
    ensures var path := SinglePath(initialPath, slug);
            var folder := if initialPath == [] then "content" else initialPath[|initialPath| - 1];
            GetSingleContent(initialPath, slug, files).value.metadata == ReadMetadata(files[path].data, folder)
  {
    var path := SinglePath(initialPath, slug);
    assert ContentPath(slug) == [];
    assert path == ["content"] + initialPath + [FileSlug(slug).GetOr("undefined") + ".mdx"];
  }

  // ---------------------------------------------------------------
  // The class list
  // ---------------------------------------------------------------

  /** One entry of the content root's listing. */
  datatype Entry = Entry(name: string, isDirectory: bool)

  /** The metadata an entry contributes: directories with a readable `README.mdx` only. */
  function ClaseOf(e: Entry, readmes: map<string, FrontMatter.Readme>): (r: Option<Metadata>)
    ensures r.Some? <==> e.isDirectory && e.name in readmes && readmes[e.name].Readable?
    ensures r.Some? ==> NoNulls(r.value) && r.value.id != FrontMatter.Null
  {
    if e.isDirectory && e.name in readmes && readmes[e.name].Readable? then
      Some(ReadMetadata(readmes[e.name].data, e.name))
    else None
  }

  /** The classes of the entries, in listing order. */
  function ClasesOf(entries: seq<Entry>, readmes: map<string, FrontMatter.Readme>): (r: seq<Metadata>)
    ensures |r| <= |entries|
    decreases |entries|
  {
    if entries == [] then []
    else
      var prior := ClasesOf(entries[..|entries| - 1], readmes);
      match ClaseOf(entries[|entries| - 1], readmes)
      case None => prior
      case Some(m) => prior + [m]
  }

  /** The classes of a listing are those of its first part, then those of the rest. */
  lemma {:induction false} ClasesOfAppend(a: seq<Entry>, b: seq<Entry>, readmes: map<string, FrontMatter.Readme>)
    ensures ClasesOf(a + b, readmes) == ClasesOf(a, readmes) + ClasesOf(b, readmes)
    decreases |b|
  {
    if b == [] {
      assert a + b == a;
    } else {
      var init, last := b[..|b| - 1], b[|b| - 1];
      assert b == init + [last];
      assert a + b == (a + init) + [last];
      ClasesOfAppend(a, init, readmes);
      ClasesOfSnoc(a + init, last, readmes);
      ClasesOfSnoc(init, last, readmes);
    }
  }

  /** One more entry adds its class, if it has one, at the end. */
  lemma ClasesOfSnoc(entries: seq<Entry>, e: Entry, readmes: map<string, FrontMatter.Readme>)
    ensures ClasesOf(entries + [e], readmes) ==
            ClasesOf(entries, readmes) + if ClaseOf(e, readmes).Some? then [ClaseOf(e, readmes).value] else []
  {
    assert (entries + [e])[..|entries|] == entries;
  }

  /** A metadata value is in the list exactly when some entry contributes it. */
  lemma {:induction false} ClasesOfMembers(entries: seq<Entry>, readmes: map<string, FrontMatter.Readme>, m: Metadata)
    ensures m in ClasesOf(entries, readmes) <==> exists k :: 0 <= k < |entries| && ClaseOf(entries[k], readmes) == Some(m)
    decreases |entries|
  {
    if entries != [] {
      var n := |entries| - 1;
      var prior := entries[..n];
      ClasesOfMembers(prior, readmes, m);
      assert entries == prior + [entries[n]];
      ClasesOfSnoc(prior, entries[n], readmes);
      assert forall k :: 0 <= k < n ==> prior[k] == entries[k];
    }
  }

  /**
   * Every class comes from a directory with a readable `README.mdx`, and
   * there is one for each such directory: a missing or broken readme, or
   * a plain file, is skipped without stopping the loop.
   */
  lemma {:induction false} ClasesOfCount(entries: seq<Entry>, readmes: map<string, FrontMatter.Readme>)
    ensures |ClasesOf(entries, readmes)| == |set k | 0 <= k < |entries| && ClaseOf(entries[k], readmes).Some?|
  {
    ClasesOfCountPrefix(entries, readmes, |entries|);
    assert entries[..|entries|] == entries;
  }

  /** The count of classes among the first `n` entries. */
  lemma {:induction false} ClasesOfCountPrefix(entries: seq<Entry>, readmes: map<string, FrontMatter.Readme>, n: nat)
    requires n <= |entries|
    ensures |ClasesOf(entries[..n], readmes)| == |set k | 0 <= k < n && ClaseOf(entries[k], readmes).Some?|
  {
    if n > 0 {
      ClasesOfCountPrefix(entries, readmes, n - 1);
      assert entries[..n] == entries[..n - 1] + [entries[n - 1]];
      ClasesOfSnoc(entries[..n - 1], entries[n - 1], readmes);
      ClasesCountStep(entries, readmes, n - 1);
    }
  }

  /** Entry `n` adds one to the count exactly when it is a class. */
  lemma ClasesCountStep(entries: seq<Entry>, readmes: map<string, FrontMatter.Readme>, n: nat)
    requires n < |entries|
    ensures |set k | 0 <= k < n + 1 && ClaseOf(entries[k], readmes).Some?| ==
            |set k | 0 <= k < n && ClaseOf(entries[k], readmes).Some?| + (if ClaseOf(entries[n], readmes).Some? then 1 else 0)
  {
    var before := set k | 0 <= k < n && ClaseOf(entries[k], readmes).Some?;
    var after := set k | 0 <= k < n + 1 && ClaseOf(entries[k], readmes).Some?;
    var added := if ClaseOf(entries[n], readmes).Some? then {n} else {};
    forall k | k in after ensures k in before + added {
      if k < n {
        assert k in before;
      }
    }
    assert after == before + added;
    assert before !! added;
  }


  /** `getClases()`: the `for...of` loop pushing one metadata per class directory; `[]` without a root. */
  method GetClases(rootExists: bool, entries: seq<Entry>, readmes: map<string, FrontMatter.Readme>) returns (clases: seq<Metadata>)
    ensures !rootExists ==> clases == []
    ensures rootExists ==> clases == ClasesOf(entries, readmes)
  {
    if !rootExists {
      return [];
    }
    clases := [];
    var i := 0;
    while i < |entries|
      invariant i <= |entries|
      invariant clases == ClasesOf(entries[..i], readmes)
    {
      assert entries[..i + 1][..i] == entries[..i];
      var entry := entries[i];
      if entry.isDirectory && entry.name in readmes && readmes[entry.name].Readable? {
        clases := clases + [ReadMetadata(readmes[entry.name].data, entry.name)];
      }
      i := i + 1;
    }
    assert entries[..i] == entries;
  }
}

=== FILE: mini_express.dfy ===
/**
 * A minimal Express-style dispatcher. Global middlewares run in
 * registration order, each only if the one before called `next`; after
 * the last one, the first route with the request's method and URL is
 * looked up; its local middlewares run, then its handler. A request that
 * matches no route gets 404 "Not Found".
 *
 * Middlewares and handlers are functions in the source. Here each is a
 * `Layer`: the response it ends (if any) and whether it then calls `next`.
 */
module MiniExpress {
  import opened Wrappers

  /** The status code and body a layer passes to `res.end`. */
  datatype Response = Response(status: int, body: string)

  /**
   * What a middleware or handler does when invoked with `(req, res, next)`:
   * it may end the response, and then it calls `next` or it does not.
   * A layer that does neither stalls the request.
   */
  datatype Layer = Layer(name: string, continues: bool, response: Option<Response>)

  /** A registered route: `routes.push({method, path, handler, middlewares})`. */
  datatype Route = Route(verb: string, path: string, handler: Layer, middlewares: seq<Layer>)

  /** One layer that ran: a global middleware, or an element of the matched route's stack. */
  datatype Step = Global(index: nat) | Local(index: nat)

  /**
   * The result of one request: the layers that ran in order, whether route
   * lookup happened, the index of the route it selected, and the response
   * that was sent (`None` when the request is left hanging).
   */
  datatype Outcome = Outcome(trace: seq<Step>, lookedUp: bool, route: Option<nat>, response: Option<Response>)

  const NotFound := Response(404, "Not Found")

  /** `[...route.middlewares, route.handler]`: the local stack, handler last. */
  function Stack(r: Route): (s: seq<Layer>)
    ensures |s| == |r.middlewares| + 1 && s[|s| - 1] == r.handler
    ensures s[..|r.middlewares|] == r.middlewares
  {
    r.middlewares + [r.handler]
  }

  /** Every layer of the chain calls `next`, so control passes its end. */
  predicate Passes(layers: seq<Layer>) {
    forall i :: 0 <= i < |layers| ==> layers[i].continues
  }

  /**
   * How many layers of a chain run: all of them when each calls `next`,
   * otherwise up to and including the first one that does not.
   */
  function Reach(layers: seq<Layer>): (k: nat)
    ensures k <= |layers|
    ensures forall i :: 0 <= i < k - 1 ==> layers[i].continues
    ensures Passes(layers) ==> k == |layers|
    ensures !Passes(layers) ==> 0 < k && !layers[k - 1].continues
    decreases |layers|
  {
    if layers == [] then 0
    else if !layers[0].continues then 1
    else
      var k := 1 + Reach(layers[1..]);
      assert Passes(layers[1..]) ==> Passes(layers);
      k
  }

  /** The first response ended by the given layers; Node ignores any later `end`. */
  function FirstResponse(layers: seq<Layer>): Option<Response> {
    if layers == [] then None
    else if layers[0].response.Some? then layers[0].response
    else FirstResponse(layers[1..])
  }

  function Either(first: Option<Response>, later: Option<Response>): Option<Response> {
    if first.Some? then first else later
  }

  predicate Matches(r: Route, verb: string, url: string) {
    r.verb == verb && r.path == url
  }

  /** `routes.find(r => r.method === method && r.path === url)`, as an index. */
  function FindRoute(routes: seq<Route>, verb: string, url: string, from: nat := 0): (r: Option<nat>)
    requires from <= |routes|
    ensures r.Some? ==> from <= r.value < |routes| && Matches(routes[r.value], verb, url)
    ensures r.Some? ==> forall j :: from <= j < r.value ==> !Matches(routes[j], verb, url)
    ensures r.None? ==> forall j :: from <= j < |routes| ==> !Matches(routes[j], verb, url)
    decreases |routes| - from
  {
    if from == |routes| then None
    else if Matches(routes[from], verb, url) then Some(from)
    else FindRoute(routes, verb, url, from + 1)
  }

  function GlobalSteps(n: nat): (s: seq<Step>)
    ensures |s| == n && forall i :: 0 <= i < n ==> s[i] == Global(i)
  {
    seq(n, i requires 0 <= i < n => Global(i))
  }

  function LocalSteps(n: nat): (s: seq<Step>)
    ensures |s| == n && forall i :: 0 <= i < n ==> s[i] == Local(i)
  {
    seq(n, i requires 0 <= i < n => Local(i))
  }

  /**
   * What dispatching `verb url` does against the registered globals and
   * routes: the global chain, then (only if it passed its end) route
   * lookup, then either the 404 answer or the matched route's stack.
   */
  function Expected(globals: seq<Layer>, routes: seq<Route>, verb: string, url: string): (r: Outcome)
    ensures r.lookedUp <==> Passes(globals)
    ensures r.route.Some? ==> r.lookedUp && r.route.value < |routes| && Matches(routes[r.route.value], verb, url)
    ensures r.route.Some? ==> forall j :: 0 <= j < r.route.value ==> !Matches(routes[j], verb, url)
    ensures r.lookedUp && r.route.None? ==> r.response.Some? && forall j :: 0 <= j < |routes| ==> !Matches(routes[j], verb, url)
    ensures !r.lookedUp ==> r.route.None? && |r.trace| == Reach(globals)
  {
    var g := Reach(globals);
    var early := FirstResponse(globals[..g]);
    if !Passes(globals) then
      Outcome(GlobalSteps(g), false, None, early)
    else
      match FindRoute(routes, verb, url)
      case None => Outcome(GlobalSteps(g), true, None, Either(early, Some(NotFound)))
      case Some(i) =>
        var stack := Stack(routes[i]);
        var l := Reach(stack);
        Outcome(GlobalSteps(g) + LocalSteps(l), true, Some(i), Either(early, FirstResponse(stack[..l])))
  }

  /** Extending a chain by one layer extends its first response by that layer's. */
  lemma {:induction false} FirstResponseSnoc(layers: seq<Layer>, l: Layer)
    ensures FirstResponse(layers + [l]) == Either(FirstResponse(layers), l.response)
    decreases |layers|
  {
    if layers != [] {
      assert (layers + [l])[1..] == layers[1..] + [l];
      FirstResponseSnoc(layers[1..], l);
    }
  }

  /** The object `miniExpress()` returns: its two append-only lists and `app` itself. */
  class Dispatcher {
    var middlewares: seq<Layer>
    var routes: seq<Route>

    /** `miniExpress()`: both lists start empty. */
    constructor ()
      ensures middlewares == [] && routes == []
    {
      middlewares := [];
      routes := [];
    }

    /** `app.use(mw)`: appends a global middleware. */
    method Use(mw: Layer)
      modifies this
      ensures middlewares == old(middlewares) + [mw]
      ensures routes == old(routes)
    {
      middlewares := middlewares + [mw];
    }

    /** `app.get(path, handler, ...routeMiddlewares)`: appends a GET route. */
    method Get(path: string, handler: Layer, routeMiddlewares: seq<Layer>)
      modifies this
      ensures routes == old(routes) + [Route("GET", path, handler, routeMiddlewares)]
      ensures middlewares == old(middlewares)
    {
      routes := routes + [Route("GET", path, handler, routeMiddlewares)];
    }

    /** `app.post(path, handler, ...routeMiddlewares)`: appends a POST route. */
    method Post(path: string, handler: Layer, routeMiddlewares: seq<Layer>)
      modifies this
      ensures routes == old(routes) + [Route("POST", path, handler, routeMiddlewares)]
      ensures middlewares == old(middlewares)
    {
      routes := routes + [Route("POST", path, handler, routeMiddlewares)];
    }

    /**
     * `app(req, res)`: `runGlobals` over the global middlewares, then
     * `runRoute`: the route lookup, and `runStack` over the matched route's
     * local stack. A layer that does not call `next` ends the request there.
     */
    method Dispatch(verb: string, url: string) returns (out: Outcome)
      ensures out == Expected(middlewares, routes, verb, url)
    {
      var ran, passed, response := RunChain(middlewares);
      if !passed {
        return Outcome(GlobalSteps(ran), false, None, response);
      }
      var found := FindRoute(routes, verb, url);
      if found.None? {
        return Outcome(GlobalSteps(ran), true, None, Either(response, Some(NotFound)));
      }
      var route := routes[found.value];
      var stack := route.middlewares + [route.handler];
      var ranLocal, _, localResponse := RunChain(stack);
      return Outcome(GlobalSteps(ran) + LocalSteps(ranLocal), true, found, Either(response, localResponse));
    }
  }

  /**
   * The continuation-passing loop shared by `runGlobals` and `runStack`:
   * the cursor starts at 0, each layer runs and the next one is reached
   * only through `next`. Reaching the end is a silent stop
   * (`if (!layer) return`); `runGlobals` then goes on to route lookup.
   */
  method RunChain(layers: seq<Layer>) returns (ran: nat, passed: bool, response: Option<Response>)
    ensures ran == Reach(layers)
    ensures passed == Passes(layers)
    ensures response == FirstResponse(layers[..ran])
  {
    response := None;
    var cursor := 0;
    while cursor < |layers|
      invariant 0 <= cursor <= |layers|
      invariant forall i :: 0 <= i < cursor ==> layers[i].continues
      invariant response == FirstResponse(layers[..cursor])
    {
      var layer := layers[cursor];
      FirstResponseSnoc(layers[..cursor], layer);
      assert layers[..cursor + 1] == layers[..cursor] + [layer];
      cursor := cursor + 1;
      response := Either(response, layer.response);
      if !layer.continues {
        return cursor, false, response;
      }
    }
    return cursor, true, response;
  }

  /** Global middleware `k` is the `k`-th layer to run, and only after globals `0..k-1` all called `next`. */
  lemma GlobalsRunInOrder(globals: seq<Layer>, routes: seq<Route>, verb: string, url: string, k: nat)
    requires k < |Expected(globals, routes, verb, url).trace|
    requires Expected(globals, routes, verb, url).trace[k].Global?
    ensures Expected(globals, routes, verb, url).trace[k] == Global(k)
    ensures forall i :: 0 <= i < k ==> globals[i].continues
  {
  }

  /**
   * When global `k` does not call `next` (and those before it do), it is
   * the last layer to run: no later global runs and route lookup never
   * happens; the response is whatever those globals ended, if anything.
   */
  lemma StoppedGlobalEndsRequest(globals: seq<Layer>, routes: seq<Route>, verb: string, url: string, k: nat)
    requires k < |globals| && !globals[k].continues
    requires forall i :: 0 <= i < k ==> globals[i].continues
    ensures Expected(globals, routes, verb, url) == Outcome(GlobalSteps(k + 1), false, None, FirstResponse(globals[..k + 1]))
  {
    assert !Passes(globals);
  }

  /** Route lookup happens exactly when every global called `next`, and then after all of them. */
  lemma LookupOnlyAfterAllGlobals(globals: seq<Layer>, routes: seq<Route>, verb: string, url: string)
    ensures Expected(globals, routes, verb, url).lookedUp <==> Passes(globals)
    ensures Passes(globals) ==> Expected(globals, routes, verb, url).trace[..|globals|] == GlobalSteps(|globals|)
    ensures Expected(globals, routes, verb, url).route.Some? ==> Passes(globals)
  {
    if Passes(globals) {
      var o := Expected(globals, routes, verb, url);
      assert o.trace[..|globals|] == GlobalSteps(|globals|);
    }
  }

  /**
   * With two routes for the same method and path, the later one is never
   * selected: lookup picks the first registered match.
   */
  lemma FirstMatchWins(globals: seq<Layer>, routes: seq<Route>, verb: string, url: string, i: nat, j: nat)
    requires i < j < |routes|
    requires Matches(routes[i], verb, url) && Matches(routes[j], verb, url)
    ensures Expected(globals, routes, verb, url).route != Some(j)
    ensures Expected(globals, routes, verb, url).lookedUp ==>
              Expected(globals, routes, verb, url).route.Some? && Expected(globals, routes, verb, url).route.value <= i
  {
  }

  /**
   * When every global continues and no route matches, the globals ran and
   * nothing else: the answer is 404 "Not Found" unless a global already
   * ended the response.
   */
  lemma NoRouteAnswersNotFound(globals: seq<Layer>, routes: seq<Route>, verb: string, url: string)
    requires Passes(globals)
    requires forall j :: 0 <= j < |routes| ==> !Matches(routes[j], verb, url)
    ensures Expected(globals, routes, verb, url).trace == GlobalSteps(|globals|)
    ensures Expected(globals, routes, verb, url).route == None
    ensures Expected(globals, routes, verb, url).response == Either(FirstResponse(globals), Some(NotFound))
    ensures FirstResponse(globals) == None ==> Expected(globals, routes, verb, url).response == Some(NotFound)
  {
    assert globals[..|globals|] == globals;
  }

  /** A chain whose layers before the last all call `next` runs to its end, whatever the last one does. */
  lemma ReachAllButLast(layers: seq<Layer>)
    requires layers != []
    requires Passes(layers[..|layers| - 1])
    ensures Reach(layers) == |layers|
  {
    assert forall i :: 0 <= i < |layers| - 1 ==> layers[..|layers| - 1][i] == layers[i];
  }

  /**
   * With N globals and a matched route with M middlewares that all call
   * `next`, N + M + 1 layers run: the globals in order, the route's
   * middlewares in the order given, then the handler last.
   */
  lemma FullChainRuns(globals: seq<Layer>, routes: seq<Route>, verb: string, url: string, i: nat)
    requires Passes(globals)
    requires FindRoute(routes, verb, url) == Some(i)
    requires Passes(routes[i].middlewares)
    ensures Expected(globals, routes, verb, url).trace == GlobalSteps(|globals|) + LocalSteps(|routes[i].middlewares| + 1)
    ensures |Expected(globals, routes, verb, url).trace| == |globals| + |routes[i].middlewares| + 1
    ensures Expected(globals, routes, verb, url).route == Some(i)
  {
    var stack := Stack(routes[i]);
    assert stack[..|stack| - 1] == routes[i].middlewares;
    ReachAllButLast(stack);
  }

  /** The handler's call to `next` finds no layer after it: flipping whether it calls `next` changes nothing. */
  lemma HandlerNextIsNoOp(globals: seq<Layer>, routes: seq<Route>, verb: string, url: string, i: nat)
    requires i < |routes|
    ensures var r := routes[i];
            var flipped := r.(handler := r.handler.(continues := !r.handler.continues));
            Expected(globals, routes[i := flipped], verb, url) == Expected(globals, routes, verb, url)
  {
    var r := routes[i];
    var flipped := r.(handler := r.handler.(continues := !r.handler.continues));
    var routes' := routes[i := flipped];
    FindRouteSameKeys(routes, routes', verb, url, 0);
    var found := FindRoute(routes, verb, url);
    if found.Some? {
      var s, s' := Stack(routes[found.value]), Stack(routes'[found.value]);
      if found.value == i {
        StackNextAtEnd(s, s');
      } else {
        assert s == s';
      }
    }
  }

  /** Two stacks that differ only in whether their last layer calls `next` run alike. */
  lemma {:induction false} StackNextAtEnd(s: seq<Layer>, s': seq<Layer>)
    requires |s| == |s'| > 0
    requires s[..|s| - 1] == s'[..|s'| - 1]
    requires s[|s| - 1].response == s'[|s'| - 1].response
    ensures Reach(s) == Reach(s')
    ensures FirstResponse(s[..Reach(s)]) == FirstResponse(s'[..Reach(s')])
    decreases |s|
  {
    if |s| > 1 {
      assert s[0] == s[..|s| - 1][0] == s'[0];
      assert s[1..][..|s| - 2] == s[..|s| - 1][1..];
      assert s'[1..][..|s'| - 2] == s'[..|s'| - 1][1..];
      StackNextAtEnd(s[1..], s'[1..]);
      if s[0].continues {
        assert s[..Reach(s)][1..] == s[1..][..Reach(s[1..])];
        assert s'[..Reach(s')][1..] == s'[1..][..Reach(s'[1..])];
      }
    }
  }

  /** Lookup depends only on the methods and paths of the routes. */
  lemma {:induction false} FindRouteSameKeys(routes: seq<Route>, routes': seq<Route>, verb: string, url: string, from: nat)
    requires |routes| == |routes'| && from <= |routes|
    requires forall j :: 0 <= j < |routes| ==> routes[j].verb == routes'[j].verb && routes[j].path == routes'[j].path
    ensures FindRoute(routes, verb, url, from) == FindRoute(routes', verb, url, from)
    decreases |routes| - from
  {
    if from < |routes| {
      FindRouteSameKeys(routes, routes', verb, url, from + 1);
    }
  }

  /** Registering a route never changes how a request that already had a match is served. */
  lemma AppendedRouteKeepsDispatch(globals: seq<Layer>, routes: seq<Route>, r: Route, verb: string, url: string)
    requires FindRoute(routes, verb, url).Some?
    ensures Expected(globals, routes + [r], verb, url) == Expected(globals, routes, verb, url)
  {
    var a := FindRoute(routes + [r], verb, url);
    var b := FindRoute(routes, verb, url);
    assert (routes + [r])[b.value] == routes[b.value];
    assert a.value <= b.value;
    assert (routes + [r])[a.value] == routes[a.value];
  }

  /**
   * The scenario of the teaching example: two logging globals, `GET /`
   * answering "Home", and `GET /auth` guarded by `checkAuth`.
   */
  method IndexScenario() returns (auth: Outcome, home: Outcome, missing: Outcome)
    ensures auth == Outcome([Global(0), Global(1), Local(0), Local(1)], true, Some(1), Some(Response(200, "Ruta protegida")))
    ensures home == Outcome([Global(0), Global(1), Local(0)], true, Some(0), Some(Response(200, "Home")))
    ensures missing == Outcome([Global(0), Global(1)], true, None, Some(NotFound))
  {
    var global1 := Layer("Middleware global 1", true, None);
    var global2 := Layer("Middleware global 2", true, None);
    var checkAuth := Layer("checkAuth", true, None);
    var homeHandler := Layer("home", false, Some(Response(200, "Home")));
    var authHandler := Layer("auth", false, Some(Response(200, "Ruta protegida")));
    var app := new Dispatcher();
    app.Use(global1);
    app.Use(global2);
    app.Get("/", homeHandler, []);
    app.Get("/auth", authHandler, [checkAuth]);
    var globals, routes := app.middlewares, app.routes;
    assert globals == [global1, global2];
    assert FirstResponse([global2]) == None;
    assert FirstResponse(globals) == None;
    assert globals[..2] == globals;
    assert FindRoute(routes, "GET", "/auth") == Some(1);
    FullChainRuns(globals, routes, "GET", "/auth", 1);
    assert Stack(routes[1])[..2] == [checkAuth, authHandler];
    assert FirstResponse([authHandler]) == authHandler.response;
    assert FirstResponse([checkAuth, authHandler]) == authHandler.response;
    assert GlobalSteps(2) + LocalSteps(2) == [Global(0), Global(1), Local(0), Local(1)];
    auth := app.Dispatch("GET", "/auth");
    assert FindRoute(routes, "GET", "/") == Some(0);
    FullChainRuns(globals, routes, "GET", "/", 0);
    assert Stack(routes[0])[..1] == [homeHandler];
    home := app.Dispatch("GET", "/");
    NoRouteAnswersNotFound(globals, routes, "GET", "/missing");
    missing := app.Dispatch("GET", "/missing");
  }
}

=== FILE: multipart.dfy ===
/**
 * The hand-written `multipart/form-data` reader of the first Node lesson:
 * the body is cut at the boundary taken from the Content-Type header,
 * each part is cut into a header block and a content at its first blank
 * line, and the parts are collected into a plain object keyed by their
 * `name` parameter. It is a loose subset of the format of RFC 7578, with
 * boundary delimiters as in section 5.1.1 of RFC 2046.
 *
 * Where the JavaScript throws, the functions here return `None`.
 */
module Multipart {
  import opened Wrappers
  import Text

  const BlankLine := "\r\n\r\n"
  const LineBreak := "\r\n"
  const BoundaryKey := "boundary="
  const NamePrefix := "name=\""
  const FilenamePrefix := "filename=\""

  // ---------------------------------------------------------------
  // Writing keys into a plain object, one after another
  // ---------------------------------------------------------------

  /** `acc[key] = value` for each entry in turn, starting from `{}`. */
  function Assign<V>(entries: seq<(string, V)>): (r: map<string, V>)
    ensures forall k :: 0 <= k < |entries| ==> entries[k].0 in r
    ensures entries != [] ==> r[entries[|entries| - 1].0] == entries[|entries| - 1].1
    decreases |entries|
  {
    if entries == [] then map[]
    else
      var last := entries[|entries| - 1];
      Assign(entries[..|entries| - 1])[last.0 := last.1]
  }

  /** The keys of the object are exactly the keys written. */
  lemma {:induction false} AssignKeys<V>(entries: seq<(string, V)>)
    ensures Assign(entries).Keys == set j | 0 <= j < |entries| :: entries[j].0
    decreases |entries|
  {
    if entries != [] {
      var last := entries[|entries| - 1];
      var prior := entries[..|entries| - 1];
      AssignKeys(prior);
      assert (set j | 0 <= j < |entries| :: entries[j].0) == (set j | 0 <= j < |prior| :: prior[j].0) + {last.0};
    }
  }

  /** An object built by `Assign` holds, under each key, the value of the last entry with that key. */
  lemma {:induction false} LastAssignmentWins<V>(entries: seq<(string, V)>, j: nat)
    requires j < |entries|
    requires forall k :: j < k < |entries| ==> entries[k].0 != entries[j].0
    ensures entries[j].0 in Assign(entries) && Assign(entries)[entries[j].0] == entries[j].1
    decreases |entries|
  {
    var prior := entries[..|entries| - 1];
    if j < |entries| - 1 {
      LastAssignmentWins(prior, j);
    }
  }

  // ---------------------------------------------------------------
  // Header lines
  // ---------------------------------------------------------------

  /**
   * One header line: `line.split(':').map(x => x.trim())` read as
   * `[key, value]`. The key is lower-cased; the value is `undefined`
   * (here `None`) when the line has no ':'.
   */
  function HeaderEntry(line: string): (string, Option<string>) {
    var fields := Text.Split(line, ":");
    (Text.ToLower(Text.Trim(fields[0])), if |fields| >= 2 then Some(Text.Trim(fields[1])) else None)
  }

  /**
   * The key is the trimmed, lower-cased text before the first ':'; the
   * value is the trimmed text between the first and the second ':', so
   * anything after a second ':' is lost.
   */
  lemma HeaderEntryFields(line: string)
    ensures HeaderEntry(line).0 == Text.ToLower(Text.Trim(Text.Before(line, ":")))
    ensures Text.IndexOf(line, ":", 0).None? <==> HeaderEntry(line).1.None?
    ensures Text.IndexOf(line, ":", 0).Some? ==>
              HeaderEntry(line).1 == Some(Text.Trim(Text.Before(line[Text.IndexOf(line, ":", 0).value + 1..], ":")))
  {
    Text.SplitPieces(line, ":");
  }

  function HeaderEntries(lines: seq<string>): (r: seq<(string, Option<string>)>)
    ensures |r| == |lines| && forall k :: 0 <= k < |lines| ==> r[k] == HeaderEntry(lines[k])
  {
    seq(|lines|, k requires 0 <= k < |lines| => HeaderEntry(lines[k]))
  }

  /** The `reduce` over the header block's lines into `{}`. */
  function Headers(rawHeaders: string): (r: map<string, Option<string>>)
    ensures var lines := Text.Split(rawHeaders, LineBreak);
            forall k :: 0 <= k < |lines| ==> HeaderEntry(lines[k]).0 in r
  {
    var lines := Text.Split(rawHeaders, LineBreak);
    assert forall k :: 0 <= k < |lines| ==> HeaderEntries(lines)[k].0 == HeaderEntry(lines[k]).0;
    Assign(HeaderEntries(lines))
  }

  /** A header repeated in the block keeps the value of its last line. */
  lemma LastHeaderWins(rawHeaders: string, j: nat)
    requires j < |Text.Split(rawHeaders, LineBreak)|
    requires var lines := Text.Split(rawHeaders, LineBreak);
             forall k :: j < k < |lines| ==> HeaderEntry(lines[k]).0 != HeaderEntry(lines[j]).0
    ensures var line := Text.Split(rawHeaders, LineBreak)[j];
            HeaderEntry(line).0 in Headers(rawHeaders) && Headers(rawHeaders)[HeaderEntry(line).0] == HeaderEntry(line).1
  {
    LastAssignmentWins(HeaderEntries(Text.Split(rawHeaders, LineBreak)), j);
  }

  /** `headers['content-disposition']`, as the string `exec` sees: `undefined` becomes "undefined". */
  function Disposition(headers: map<string, Option<string>>): string {
    if "content-disposition" in headers then headers["content-disposition"].GetOr("undefined") else "undefined"
  }

  // ---------------------------------------------------------------
  // The regular expressions /name="(.+?)"/ and /filename="(.+?)"/
  // ---------------------------------------------------------------

  /** `(.+?)"` can capture the `n` characters at `q`: none is a line terminator and a '"' follows. */
  predicate ValidCapture(s: string, q: nat, n: nat) {
    1 <= n && q + n < |s| && s[q + n] == '"' && forall k :: q <= k < q + n ==> !Text.IsLineTerminator(s[k])
  }

  /** The lazy `(.+?)"` at `q`, `n` characters already consumed: the shortest capture longer than `n`. */
  function LazyCapture(s: string, q: nat, n: nat): (r: Option<nat>)
    requires q + n <= |s|
    requires forall k :: q <= k < q + n ==> !Text.IsLineTerminator(s[k])
    ensures r.Some? ==> n < r.value && ValidCapture(s, q, r.value)
    ensures r.Some? ==> forall m :: n < m < r.value ==> !ValidCapture(s, q, m)
    ensures r.None? ==> forall m :: n < m ==> !ValidCapture(s, q, m)
    decreases |s| - (q + n)
  {
    if q + n == |s| || Text.IsLineTerminator(s[q + n]) then None
    else if q + n + 1 < |s| && s[q + n + 1] == '"' then Some(n + 1)
    else LazyCapture(s, q, n + 1)
  }

  /** The pattern `prefix(.+?)"` matches at position `p`. */
  predicate MatchesAt(s: string, prefix: string, p: nat) {
    Text.OccursAt(s, prefix, p) && LazyCapture(s, p + |prefix|, 0).Some?
  }

  /** The leftmost match at or after `p`. */
  function MatchFrom(s: string, prefix: string, p: nat): (r: Option<nat>)
    requires p <= |s|
    ensures r.Some? ==> p <= r.value && MatchesAt(s, prefix, r.value)
    ensures r.Some? ==> forall j :: p <= j < r.value ==> !MatchesAt(s, prefix, j)
    ensures r.None? ==> forall j :: p <= j ==> !MatchesAt(s, prefix, j)
    decreases |s| - p
  {
    if MatchesAt(s, prefix, p) then Some(p)
    else if p == |s| then None
    else MatchFrom(s, prefix, p + 1)
  }

  /** `/prefix(.+?)"/.exec(s)?.[1] ?? null`. */
  function Exec(s: string, prefix: string): (r: Option<string>)
    ensures r.Some? ==> r.value != []
  {
    match MatchFrom(s, prefix, 0)
    case None => None
    case Some(p) =>
      var q := p + |prefix|;
      Some(s[q..q + LazyCapture(s, q, 0).value])
  }

  /** The pattern captures something exactly when it matches somewhere in `s`. */
  lemma ExecMatches(s: string, prefix: string)
    ensures Exec(s, prefix).Some? <==> exists p :: MatchesAt(s, prefix, p)
  {
    if Exec(s, prefix).Some? {
      assert MatchesAt(s, prefix, MatchFrom(s, prefix, 0).value);
    }
  }

  /** The text the pattern matched at `p`: the prefix, the `n` captured characters and the closing '"'. */
  lemma MatchedText(s: string, prefix: string, p: nat, n: nat)
    requires Text.OccursAt(s, prefix, p) && ValidCapture(s, p + |prefix|, n)
    ensures Text.OccursAt(s, prefix + s[p + |prefix|..p + |prefix| + n] + "\"", p)
  {
    var q := p + |prefix|;
    var w := prefix + s[q..q + n] + "\"";
    forall k | 0 <= k < |w| ensures s[p + k] == w[k] {
      if k < |prefix| {
        assert s[p..q][k] == prefix[k];
      }
    }
    assert s[p..p + |w|] == w;
  }

  /** The lazy capture of `n` characters holds no '"' after its first character. */
  lemma CaptureShortest(s: string, q: nat, n: nat)
    requires q <= |s| && LazyCapture(s, q, 0) == Some(n)
    ensures forall k :: q < k < q + n ==> s[k] != '"'
  {
    forall k | q < k < q + n ensures s[k] != '"' {
      assert !ValidCapture(s, q, k - q);
    }
  }

  /**
   * A captured value is non-empty, lies on one line, is followed by a '"'
   * right after the prefix in `s`, and holds no '"' after its first
   * character: the capture is the shortest one.
   */
  lemma ExecSound(s: string, prefix: string)
    ensures Exec(s, prefix).Some? ==>
              var v := Exec(s, prefix).value;
              && v != [] && Text.OnOneLine(v)
              && Text.Contains(s, prefix + v + "\"")
              && forall m :: 1 <= m < |v| ==> v[m] != '"'
  {
    match MatchFrom(s, prefix, 0)
    case None =>
    case Some(p) =>
      CaptureSound(s, prefix, p);
  }

  /** The capture of the match at `p`, as `ExecSound` describes it. */
  lemma CaptureSound(s: string, prefix: string, p: nat)
    requires MatchesAt(s, prefix, p)
    ensures var q := p + |prefix|;
            var v := s[q..q + LazyCapture(s, q, 0).value];
            && v != [] && Text.OnOneLine(v)
            && Text.Contains(s, prefix + v + "\"")
            && forall m :: 1 <= m < |v| ==> v[m] != '"'
  {
    var q := p + |prefix|;
    var n := LazyCapture(s, q, 0).value;
    var v := s[q..q + n];
    MatchedText(s, prefix, p, n);
    CaptureShortest(s, q, n);
    forall m | 1 <= m < |v| ensures v[m] != '"' {
      assert v[m] == s[q + m];
    }
    forall k | 0 <= k < |v| ensures !Text.IsLineTerminator(v[k]) {
      assert v[k] == s[q + k];
    }
  }

  /** The pattern finds something whenever the prefix is followed by a non-empty one-line value and a '"'. */
  lemma ExecFinds(s: string, prefix: string, v: string, p: nat)
    requires v != [] && Text.OnOneLine(v)
    requires Text.OccursAt(s, prefix + v + "\"", p)
    ensures Exec(s, prefix).Some?
  {
    var q := p + |prefix|;
    var w := prefix + v + "\"";
    assert s[p..p + |w|] == w;
    assert Text.OccursAt(s, prefix, p) by {
      assert s[p..q] == w[..|prefix|];
    }
    assert ValidCapture(s, q, |v|) by {
      forall k | q <= k < q + |v| ensures !Text.IsLineTerminator(s[k]) {
        assert s[k] == w[k - p] == v[k - q];
      }
      assert s[q + |v|] == w[|w| - 1];
    }
    assert MatchesAt(s, prefix, p);
  }

  /**
   * `name="` also occurs inside `filename="`. When no `name="` comes
   * before the filename parameter, the part's name is its file name.
   */
  lemma NameTakenFromFilename(s: string, p: nat)
    requires MatchFrom(s, FilenamePrefix, 0) == Some(p)
    requires forall j: nat :: j < p + 4 ==> !Text.OccursAt(s, NamePrefix, j)
    ensures Exec(s, NamePrefix) == Exec(s, FilenamePrefix)
  {
    NameInFilename(s, p);
    FirstNameMatch(s, p + 4);
  }

  /** A match with no occurrence of the prefix before it is the leftmost one. */
  lemma FirstNameMatch(s: string, p: nat)
    requires MatchesAt(s, NamePrefix, p)
    requires forall j: nat :: j < p ==> !Text.OccursAt(s, NamePrefix, j)
    ensures MatchFrom(s, NamePrefix, 0) == Some(p)
  {
  }

  /** `filename="` ends with `name="`, four characters in. */
  lemma NameInFilename(s: string, p: nat)
    requires Text.OccursAt(s, FilenamePrefix, p)
    ensures Text.OccursAt(s, NamePrefix, p + 4)
  {
    assert s[p + 4..p + 10] == s[p..p + 10][4..];
  }

  // ---------------------------------------------------------------
  // One part
  // ---------------------------------------------------------------

  /** What `parsePart` returns; `None` for `null`. */
  datatype Part = Part(name: Option<string>, filename: Option<string>, content: string)

  /**
   * `parsePart(part)`: `None` when the part has no blank line, where
   * `rawContent` is undefined and `rawContent.trim()` throws.
   */
  function ParsePart(part: string): (r: Option<Part>)
    ensures r.None? <==> Text.IndexOf(part, BlankLine, 0).None?
  {
    Text.SplitHead(part, BlankLine);
    var pieces := Text.Split(part, BlankLine);
    if |pieces| < 2 then None
    else
      var disposition := Disposition(Headers(pieces[0]));
      Some(Part(Exec(disposition, NamePrefix), Exec(disposition, FilenamePrefix), Text.Trim(pieces[1])))
  }

  /**
   * A part parses exactly when it holds a blank line. The headers are the
   * text before the first blank line; the content is the text between the
   * first and the second, trimmed, so anything after a second blank line
   * is dropped.
   */
  lemma PartLayout(part: string)
    ensures ParsePart(part).None? <==> Text.IndexOf(part, BlankLine, 0).None?
    ensures Text.IndexOf(part, BlankLine, 0).Some? ==>
              var i := Text.IndexOf(part, BlankLine, 0).value;
              var disposition := Disposition(Headers(part[..i]));
              && ParsePart(part).value.content == Text.Trim(Text.Before(part[i + |BlankLine|..], BlankLine))
              && ParsePart(part).value.name == Exec(disposition, NamePrefix)
              && ParsePart(part).value.filename == Exec(disposition, FilenamePrefix)
  {
    Text.SplitPieces(part, BlankLine);
  }

  // ---------------------------------------------------------------
  // The request body
  // ---------------------------------------------------------------

  /**
   * `"--" + contentType.split("boundary=")[1]`: `None` without a
   * Content-Type header, where `split` is called on `undefined`.
   */
  function Boundary(contentType: Option<string>): (r: Option<string>)
    ensures r.None? <==> contentType.None?
    ensures r.Some? ==> |r.value| >= 2 && r.value[..2] == "--"
  {
    match contentType
    case None => None
    case Some(ct) =>
      var pieces := Text.Split(ct, BoundaryKey);
      Some("--" + (if |pieces| >= 2 then pieces[1] else "undefined"))
  }

  /**
   * The boundary is "--" and the text after the first "boundary=" up to
   * any second one; without "boundary=" it is "--undefined".
   */
  lemma BoundaryText(ct: string)
    ensures Text.IndexOf(ct, BoundaryKey, 0).None? ==> Boundary(Some(ct)) == Some("--undefined")
    ensures Text.IndexOf(ct, BoundaryKey, 0).Some? ==>
              Boundary(Some(ct)) == Some("--" + Text.Before(ct[Text.IndexOf(ct, BoundaryKey, 0).value + |BoundaryKey|..], BoundaryKey))
  {
    Text.SplitPieces(ct, BoundaryKey);
    assert "--" + "undefined" == "--undefined";
  }

  /** The filter: a piece that trims to "" or to "--" is not a part. */
  predicate Kept(piece: string) {
    Text.Trim(piece) != "" && Text.Trim(piece) != "--"
  }

  /** `pieces.filter(p => p.trim() !== "" && p.trim() !== "--")`. */
  function KeepParts(pieces: seq<string>): (r: seq<string>)
    ensures |r| <= |pieces|
    ensures forall k :: 0 <= k < |r| ==> Kept(r[k])
  {
    if pieces == [] then []
    else (if Kept(pieces[0]) then [pieces[0]] else []) + KeepParts(pieces[1..])
  }

  /** The filter keeps exactly the pieces that are parts. */
  lemma {:induction false} KeepPartsMembers(pieces: seq<string>, piece: string)
    ensures piece in KeepParts(pieces) <==> piece in pieces && Kept(piece)
    decreases |pieces|
  {
    if pieces != [] {
      KeepPartsMembers(pieces[1..], piece);
      assert pieces == [pieces[0]] + pieces[1..];
    }
  }

  /** The filter keeps order and every copy: it distributes over concatenation. */
  lemma {:induction false} KeepPartsAppend(a: seq<string>, b: seq<string>)
    ensures KeepParts(a + b) == KeepParts(a) + KeepParts(b)
    decreases |a|
  {
    if a == [] {
      assert a + b == b;
    } else {
      var head := if Kept(a[0]) then [a[0]] else [];
      Text.ConsAppend(a, b);
      KeepPartsCons(a[0], a[1..] + b);
      Text.ConsSplit(a);
      KeepPartsCons(a[0], a[1..]);
      KeepPartsAppend(a[1..], b);
      Text.AppendAssoc(head, KeepParts(a[1..]), KeepParts(b));
    }
  }

  lemma KeepPartsCons(piece: string, rest: seq<string>)
    ensures KeepParts([piece] + rest) == (if Kept(piece) then [piece] else []) + KeepParts(rest)
  {
    assert ([piece] + rest)[1..] == rest;
  }

  /** One piece is kept exactly when it is `Kept`. */
  lemma KeepPartsOne(piece: string)
    ensures KeepParts([piece]) == if Kept(piece) then [piece] else []
  {
    assert [piece][1..] == [];
  }

  /**
   * `info.body?.split(boundary).filter(...)`: `None` for an empty body,
   * which `body || null` turned into `null`; the `for...of` over the
   * resulting `undefined` throws.
   */
  function Parts(body: string, boundary: string): (r: Option<seq<string>>)
    requires boundary != []
    ensures r.None? <==> body == ""
    ensures r.Some? ==> r.value == KeepParts(Text.Split(body, boundary))
  {
    if body == "" then None else Some(KeepParts(Text.Split(body, boundary)))
  }

  /** A form field: plain text, or a file with its name. */
  datatype Field = Value(content: string) | Upload(filename: string, content: string)

  /** `formData[parsed.name]`: a missing name is the key "null". */
  function KeyOf(p: Part): string {
    p.name.GetOr("null")
  }

  /** `parsed.filename ? { filename, content } : content`. */
  function FieldOf(p: Part): Field {
    if p.filename.Some? then Upload(p.filename.value, p.content) else Value(p.content)
  }

  function Entries(parsed: seq<Part>): (r: seq<(string, Field)>)
    ensures |r| == |parsed| && forall k :: 0 <= k < |parsed| ==> r[k] == (KeyOf(parsed[k]), FieldOf(parsed[k]))
  {
    seq(|parsed|, k requires 0 <= k < |parsed| => (KeyOf(parsed[k]), FieldOf(parsed[k])))
  }

  /** `f` applied to every element in turn, or `None` as soon as one application fails. */
  function Traverse<A, B>(xs: seq<A>, f: A -> Option<B>): Option<seq<B>>
    decreases |xs|
  {
    if xs == [] then Some([])
    else
      match Traverse(xs[..|xs| - 1], f)
      case None => None
      case Some(ys) =>
        match f(xs[|xs| - 1])
        case None => None
        case Some(y) => Some(ys + [y])
  }

  /** `Traverse` fails exactly when one element fails, and otherwise holds each element's value. */
  lemma {:induction false} TraverseMeaning<A, B>(xs: seq<A>, f: A -> Option<B>)
    ensures Traverse(xs, f).None? <==> exists k :: 0 <= k < |xs| && f(xs[k]).None?
    ensures Traverse(xs, f).Some? ==>
              |Traverse(xs, f).value| == |xs| && forall k :: 0 <= k < |xs| ==> f(xs[k]) == Some(Traverse(xs, f).value[k])
    decreases |xs|
  {
    if xs != [] {
      var prior := xs[..|xs| - 1];
      TraverseMeaning(prior, f);
      assert forall k :: 0 <= k < |prior| ==> prior[k] == xs[k];
      if Traverse(prior, f).None? {
        var k :| 0 <= k < |prior| && f(prior[k]).None?;
        assert f(xs[k]).None?;
      }
    }
  }

  /** One more successful element extends the traversal of a prefix. */
  lemma TraverseStep<A, B>(xs: seq<A>, f: A -> Option<B>, n: nat, ys: seq<B>, y: B)
    requires n < |xs| && Traverse(xs[..n], f) == Some(ys) && f(xs[n]) == Some(y)
    ensures Traverse(xs[..n + 1], f) == Some(ys + [y])
  {
    assert xs[..n + 1][..n] == xs[..n];
  }

  /** A failing element fails the traversal of the prefix it ends. */
  lemma TraverseStepFails<A, B>(xs: seq<A>, f: A -> Option<B>, n: nat)
    requires n < |xs| && f(xs[n]).None?
    ensures Traverse(xs[..n + 1], f).None?
  {
    assert xs[..n + 1][..n] == xs[..n];
  }

  /** A failure among the first `n` elements is a failure of the whole. */
  lemma TraversePrefixFails<A, B>(xs: seq<A>, f: A -> Option<B>, n: nat)
    requires n <= |xs| && Traverse(xs[..n], f).None?
    ensures Traverse(xs, f).None?
  {
    TraverseMeaning(xs[..n], f);
    var k :| 0 <= k < n && f(xs[..n][k]).None?;
    TraverseMeaning(xs, f);
    assert f(xs[k]).None?;
  }

  /** One more part adds one more entry at the end. */
  lemma EntriesSnoc(parsed: seq<Part>, p: Part)
    ensures Assign(Entries(parsed + [p])) == Assign(Entries(parsed))[KeyOf(p) := FieldOf(p)]
  {
    assert Entries(parsed + [p])[..|parsed|] == Entries(parsed);
  }

  /** Every part parsed, or `None` as soon as one throws. */
  function ParseAll(parts: seq<string>): Option<seq<Part>> {
    Traverse(parts, ParsePart)
  }

  /** The object the loop builds from the parts, or `None` when a part throws. */
  function FormData(parts: seq<string>): (r: Option<map<string, Field>>)
    ensures r.None? <==> exists k :: 0 <= k < |parts| && ParsePart(parts[k]).None?
  {
    TraverseMeaning(parts, ParsePart);
    match ParseAll(parts)
    case None => None
    case Some(parsed) => Some(Assign(Entries(parsed)))
  }

  /** The fields are named after the parts, and a later part with the same name overwrites an earlier one. */
  lemma LastPartWins(parsed: seq<Part>, j: nat)
    requires j < |parsed|
    requires forall k :: j < k < |parsed| ==> KeyOf(parsed[k]) != KeyOf(parsed[j])
    ensures Assign(Entries(parsed)).Keys == set k | 0 <= k < |parsed| :: KeyOf(parsed[k])
    ensures Assign(Entries(parsed))[KeyOf(parsed[j])] == FieldOf(parsed[j])
  {
    var entries := Entries(parsed);
    AssignKeys(entries);
    assert (set k | 0 <= k < |parsed| :: KeyOf(parsed[k])) == (set k | 0 <= k < |entries| :: entries[k].0);
    LastAssignmentWins(entries, j);
  }

  /** The `for...of` loop filling `formData`, one part at a time. */
  method BuildFormData(parts: seq<string>) returns (formData: Option<map<string, Field>>)
    ensures formData == FormData(parts)
  {
    var acc: map<string, Field> := map[];
    ghost var parsed: seq<Part> := [];
    var i := 0;
    while i < |parts|
      invariant i <= |parts| && |parsed| == i
      invariant Traverse(parts[..i], ParsePart) == Some(parsed)
      invariant acc == Assign(Entries(parsed))
    {
      var p := ParsePart(parts[i]);
      if p.None? {
        TraverseStepFails(parts, ParsePart, i);
        TraversePrefixFails(parts, ParsePart, i + 1);
        return None;
      }
      TraverseStep(parts, ParsePart, i, parsed, p.value);
      EntriesSnoc(parsed, p.value);
      acc := acc[KeyOf(p.value) := FieldOf(p.value)];
      parsed := parsed + [p.value];
      i := i + 1;
    }
    assert parts[..i] == parts;
    formData := Some(acc);
  }

  /**
   * The request callback up to `info.body = formData`: the boundary from
   * the Content-Type header, the body's parts, and the object built from
   * them. `None` where the JavaScript throws: no Content-Type, an empty
   * body, or a part without a blank line.
   */
  method ReadForm(contentType: Option<string>, body: string) returns (formData: Option<map<string, Field>>)
    ensures contentType.None? || body == "" ==> formData.None?
    ensures contentType.Some? && body != "" ==>
              formData == FormData(KeepParts(Text.Split(body, Boundary(contentType).value)))
  {
    var boundary := Boundary(contentType);
    if boundary.None? {
      return None;
    }
    var parts := Parts(body, boundary.value);
    if parts.None? {
      return None;
    }
    formData := BuildFormData(parts.value);
  }
}

=== FILE: node_path.dfy ===
/**
 * Node's `path.extname` and `path.basename(name, ext)` for a bare file
 * name (no '/'), the only form in which the catalog code looks at
 * extensions.
 */
module NodePath {
  import opened Wrappers

  /** The index of the last '.' in `name[..end]`. */
  function LastDot(name: string, end: nat): (r: Option<nat>)
    requires end <= |name|
    ensures r.Some? ==> r.value < end && name[r.value] == '.'
    ensures r.Some? ==> forall k :: r.value < k < end ==> name[k] != '.'
    ensures r.None? ==> forall k :: 0 <= k < end ==> name[k] != '.'
  {
    if end == 0 then None
    else if name[end - 1] == '.' then Some(end - 1)
    else LastDot(name, end - 1)
  }

  /**
   * `path.extname(name)`: from the last '.' to the end, except that a name
   * without a '.', a name whose only leading '.' is its last one (".env")
   * and the name ".." have no extension.
   */
  function ExtName(name: string): (r: string)
    ensures r == [] || (r[0] == '.' && |r| < |name| && r == name[|name| - |r|..])
    ensures forall k :: 1 <= k < |r| ==> r[k] != '.'
    ensures r != [] <==> name != ".." && exists i :: 0 < i < |name| && name[i] == '.'
  {
    match LastDot(name, |name|)
    case None => ""
    case Some(i) => if i == 0 || name == ".." then "" else name[i..]
  }

  /** `path.basename(name, path.extname(name))`: the name without its extension. */
  function StripExt(name: string): (r: string)
    ensures r + ExtName(name) == name
  {
    name[..|name| - |ExtName(name)|]
  }

  /** A non-empty stem followed by ".mdx" has extension ".mdx" and strips back to the stem. */
  lemma MdxRoundTrip(stem: string)
    requires stem != []
    ensures ExtName(stem + ".mdx") == ".mdx"
    ensures StripExt(stem + ".mdx") == stem
  {
    var name := stem + ".mdx";
    assert name[|stem|] == '.' && name[|stem| + 1] == 'm' && name[|stem| + 2] == 'd' && name[|stem| + 3] == 'x';
    assert LastDot(name, |name|) == Some(|stem|);
    assert name[|stem|..] == ".mdx";
  }

  /** A name whose extension is ".mdx" is a non-empty stem followed by ".mdx". */
  lemma MdxNames(name: string)
    requires ExtName(name) == ".mdx"
    ensures |name| > 4 && name == StripExt(name) + ".mdx"
  {
  }
}

=== FILE: simple_todo.dfy ===
/**
 * The one-page todo list: a `TodoApp` holding an array of task strings
 * and the current text of its input box. Local storage becomes the
 * constructor's argument; the DOM list becomes the items `Render` returns.
 */
module SimpleTodo {
  import opened Wrappers
  import Text

  /** One rendered `<li>`: the task text, and the index its delete button removes. */
  datatype ListItem = ListItem(text: string, removes: nat)

  /** The list after `addTodo` with `input` in the box: the trimmed text appended, unless it is blank. */
  function WithAdded(todos: seq<string>, input: string): (r: seq<string>)
    ensures Text.AllSpace(input) ==> r == todos
    ensures !Text.AllSpace(input) ==> |r| == |todos| + 1 && r[..|todos|] == todos && r[|todos|] == Text.Trim(input)
  {
    Text.TrimEmptyIff(input);
    var value := Text.Trim(input);
    if value == "" then todos else todos + [value]
  }

  /** The list after `removeTodo(index)`: `splice(index, 1)`, which ignores an index past the end. */
  function WithRemoved(todos: seq<string>, index: nat): (r: seq<string>)
    ensures index >= |todos| ==> r == todos
    ensures index < |todos| ==> |r| == |todos| - 1
    ensures index < |todos| ==> forall k :: 0 <= k < |r| ==> r[k] == (if k < index then todos[k] else todos[k + 1])
  {
    if index < |todos| then todos[..index] + todos[index + 1..] else todos
  }

  /** Removing the entry just added gives the list back. */
  lemma RemoveUndoesAdd(todos: seq<string>, input: string)
    requires !Text.AllSpace(input)
    ensures WithRemoved(WithAdded(todos, input), |todos|) == todos
  {
    var added := WithAdded(todos, input);
    assert added[..|todos|] == todos;
  }

  /** A task is stored trimmed: non-blank, with no white space at either end. */
  predicate Tidy(todo: string) {
    todo != [] && !Text.IsSpace(todo[0]) && !Text.IsSpace(todo[|todo| - 1])
  }

  /** Adding keeps every stored task tidy. */
  lemma AddKeepsTidy(todos: seq<string>, input: string)
    requires forall k :: 0 <= k < |todos| ==> Tidy(todos[k])
    ensures forall k :: 0 <= k < |WithAdded(todos, input)| ==> Tidy(WithAdded(todos, input)[k])
  {
    var added := WithAdded(todos, input);
    if !Text.AllSpace(input) {
      Text.TrimEmptyIff(input);
      forall k | 0 <= k < |added| ensures Tidy(added[k]) {
        if k < |todos| {
          assert added[k] == added[..|todos|][k];
        }
      }
    }
  }

  /** Removing keeps every remaining task tidy. */
  lemma RemoveKeepsTidy(todos: seq<string>, index: nat)
    requires forall k :: 0 <= k < |todos| ==> Tidy(todos[k])
    ensures forall k :: 0 <= k < |WithRemoved(todos, index)| ==> Tidy(WithRemoved(todos, index)[k])
  {
  }

  class TodoApp {
    var todos: seq<string>
    var input: string

    /** `JSON.parse(localStorage.getItem("todos")) || []`: the stored list, or `[]` when nothing is stored. */
    constructor (stored: Option<seq<string>>, typed: string)
      ensures todos == stored.GetOr([]) && input == typed
    {
      todos := stored.GetOr([]);
      input := typed;
    }

    /** `addTodo()`: appends the trimmed input and clears the box; blank input changes nothing. */
    method AddTodo()
      modifies this
      ensures todos == WithAdded(old(todos), old(input))
      ensures input == if Text.AllSpace(old(input)) then old(input) else ""
    {
      Text.TrimEmptyIff(input);
      var value := Text.Trim(input);
      if value == "" {
        return;
      }
      todos := todos + [value];
      input := "";
    }

    /** `removeTodo(index)`: drops the entry at `index`, keeping the others in order. */
    method RemoveTodo(index: nat)
      modifies this
      ensures todos == WithRemoved(old(todos), index) && input == old(input)
    {
      if index < |todos| {
        todos := todos[..index] + todos[index + 1..];
      }
    }

    /** `render()`: one list item per task, in array order, each removing its own index. */
    method Render() returns (items: seq<ListItem>)
      ensures |items| == |todos|
      ensures forall k :: 0 <= k < |items| ==> items[k] == ListItem(todos[k], k)
    {
      items := [];
      var index := 0;
      while index < |todos|
        invariant index <= |todos| && |items| == index
        invariant forall k :: 0 <= k < index ==> items[k] == ListItem(todos[k], k)
      {
        items := items + [ListItem(todos[index], index)];
        index := index + 1;
      }
    }
  }
}

=== FILE: text.dfy ===
/**
 * The few JavaScript string operations the modelled code relies on:
 * `String.prototype.trim`, `split` with a non-empty string separator,
 * `join`, and `toLowerCase` restricted to ASCII letters.
 */
module Text {
  import opened Wrappers

  /** ECMAScript LineTerminator: what `.` in a regular expression does not match. */
  predicate IsLineTerminator(c: char) {
    c == '\n' || c == '\r' || c == '\U{2028}' || c == '\U{2029}'
  }

  /**
   * ECMAScript WhiteSpace or LineTerminator: the characters `trim` removes
   * and the characters `\s` matches in a regular expression.
   */
  predicate IsSpace(c: char) {
    || c == '\t' || c == '\U{000B}' || c == '\U{000C}' || c == ' '
    || c == '\U{00A0}' || c == '\U{FEFF}' || c == '\U{1680}'
    || ('\U{2000}' <= c <= '\U{200A}')
    || c == '\U{202F}' || c == '\U{205F}' || c == '\U{3000}'
    || IsLineTerminator(c)
  }

  predicate AllSpace(s: string) {
    forall i :: 0 <= i < |s| ==> IsSpace(s[i])
  }

  /** Drops the leading white space. */
  function TrimStart(s: string): (r: string)
    ensures |r| <= |s| && r == s[|s| - |r|..]
    ensures forall i :: 0 <= i < |s| - |r| ==> IsSpace(s[i])
    ensures r == [] || !IsSpace(r[0])
    decreases |s|
  {
    if s != [] && IsSpace(s[0]) then
      var r := TrimStart(s[1..]);
      assert forall i :: 1 <= i < |s| ==> s[i] == s[1..][i - 1];
      r
    else s
  }

  /** Splitting off the first element of a concatenation. */
  lemma ConsAppend<T>(x: seq<T>, d: seq<T>)
    requires x != []
    ensures x + d == [x[0]] + (x[1..] + d)
  {
  }

  lemma ConsSplit<T>(x: seq<T>)
    requires x != []
    ensures x == [x[0]] + x[1..]
  {
  }

  lemma AppendAssoc<T>(x: seq<T>, y: seq<T>, z: seq<T>)
    ensures x + y + z == x + (y + z)
  {
  }

  /** Leading white space followed by text that does not start with white space trims to that text. */
  lemma {:induction false} TrimStartSpaces(w: string, b: string)
    requires AllSpace(w)
    requires b == [] || !IsSpace(b[0])
    ensures TrimStart(w + b) == b
    decreases |w|
  {
    if w == [] {
      assert w + b == b;
    } else {
      assert (w + b)[1..] == w[1..] + b;
      TrimStartSpaces(w[1..], b);
    }
  }

  /** Drops the trailing white space. */
  function TrimEnd(s: string): (r: string)
    ensures |r| <= |s| && r == s[..|r|]
    ensures forall i :: |r| <= i < |s| ==> IsSpace(s[i])
    ensures r == [] || !IsSpace(r[|r| - 1])
    decreases |s|
  {
    if s != [] && IsSpace(s[|s| - 1]) then
      var r := TrimEnd(s[..|s| - 1]);
      assert forall i :: 0 <= i < |s| - 1 ==> s[i] == s[..|s| - 1][i];
      r
    else s
  }

  /** `s.trim()`: `s` without its leading and trailing white space. */
  function Trim(s: string): (r: string)
    ensures |r| <= |s|
    ensures r == [] || (!IsSpace(r[0]) && !IsSpace(r[|r| - 1]))
  {
    TrimEnd(TrimStart(s))
  }

  /**
   * Trimming drops only white space: every character before the first one
   * `TrimStart` keeps, and every character after the last one `Trim` keeps.
   */
  lemma TrimDropsSpace(s: string, i: nat)
    requires i < |s|
    requires i < |s| - |TrimStart(s)| || |s| - |TrimStart(s)| + |Trim(s)| <= i
    ensures IsSpace(s[i])
  {
    var t := TrimStart(s);
    var a := |s| - |t|;
    if a <= i {
      assert t == s[a..];
      assert s[i] == t[i - a];
    }
  }

  /** A string trims to "" exactly when it is made of white space only. */
  lemma TrimEmptyIff(s: string)
    ensures Trim(s) == [] <==> AllSpace(s)
  {
    var t := TrimStart(s);
    assert t[0..] == t;
    assert s[..|s|] == s;
    if t != [] {
      assert t[0] == s[|s| - |t|];
    }
  }

  /** Trimming twice is trimming once. */
  lemma TrimIdempotent(s: string)
    ensures Trim(Trim(s)) == Trim(s)
  {
    var t := Trim(s);
    if t != [] {
      assert !IsSpace(t[0]) && !IsSpace(t[|t| - 1]);
      assert TrimStart(t) == t;
      assert TrimEnd(t) == t;
    }
  }

  /** ASCII `toLowerCase` of one character. */
  function LowerChar(c: char): char {
    if 'A' <= c <= 'Z' then (c as int - 'A' as int + 'a' as int) as char else c
  }

  /** `s.toLowerCase()` on ASCII letters; every other character is kept. */
  function ToLower(s: string): (r: string)
    ensures |r| == |s|
    ensures forall i :: 0 <= i < |s| ==> r[i] == LowerChar(s[i]) && !('A' <= r[i] <= 'Z')
  {
    seq(|s|, i requires 0 <= i < |s| => LowerChar(s[i]))
  }

  /** `sep` occurs in `s` at position `i`. */
  predicate OccursAt(s: string, sep: string, i: nat) {
    i + |sep| <= |s| && s[i..i + |sep|] == sep
  }

  predicate Contains(s: string, sep: string) {
    exists i: nat | i <= |s| :: OccursAt(s, sep, i)
  }

  /** `s.indexOf(sep, from)`: the first occurrence of `sep` at or after `from`. */
  function IndexOf(s: string, sep: string, from: nat): (r: Option<nat>)
    requires from <= |s|
    ensures r.Some? ==> from <= r.value && OccursAt(s, sep, r.value)
    ensures r.Some? ==> forall j: nat :: from <= j < r.value ==> !OccursAt(s, sep, j)
    ensures r.None? ==> forall j: nat :: from <= j ==> !OccursAt(s, sep, j)
    decreases |s| - from
  {
    if OccursAt(s, sep, from) then Some(from)
    else if from == |s| then None
    else IndexOf(s, sep, from + 1)
  }

  /** `pieces.join(sep)`. */
  function Join(pieces: seq<string>, sep: string): string {
    if |pieces| == 0 then ""
    else if |pieces| == 1 then pieces[0]
    else pieces[0] + sep + Join(pieces[1..], sep)
  }

  /** `s.split(sep)` for a non-empty separator: the text between the occurrences of `sep`, left to right. */
  function Split(s: string, sep: string): (r: seq<string>)
    requires sep != []
    ensures |r| >= 1
    decreases |s|
  {
    match IndexOf(s, sep, 0)
    case None => [s]
    case Some(i) => [s[..i]] + Split(s[i + |sep|..], sep)
  }

  /** Where `sep` occurs, `s` is the first piece, `sep` and the text split further. */
  lemma SplitStep(s: string, sep: string, i: nat)
    requires sep != [] && IndexOf(s, sep, 0) == Some(i)
    ensures i + |sep| <= |s|
    ensures Split(s, sep) == [s[..i]] + Split(s[i + |sep|..], sep)
    ensures s == s[..i] + sep + s[i + |sep|..]
  {
    assert s[i..i + |sep|] == sep;
    assert s == s[..i] + s[i..i + |sep|] + s[i + |sep|..];
  }

  /** Splitting loses nothing: joining the pieces with `sep` gives `s` back. */
  lemma {:induction false} SplitJoin(s: string, sep: string)
    requires sep != []
    ensures Join(Split(s, sep), sep) == s
    decreases |s|
  {
    match IndexOf(s, sep, 0)
    case None =>
    case Some(i) =>
      SplitStep(s, sep, i);
      SplitJoin(s[i + |sep|..], sep);
  }

  /** The text before the first occurrence of `sep` does not contain it. */
  lemma BeforeFree(s: string, sep: string)
    requires sep != []
    ensures !Contains(Before(s, sep), sep)
  {
    var head := Before(s, sep);
    forall j: nat | OccursAt(head, sep, j) ensures false {
      assert s[j..j + |sep|] == head[j..j + |sep|];
      assert OccursAt(s, sep, j);
    }
  }

  /** Splitting cuts at every occurrence: no piece contains `sep`. */
  lemma {:induction false} SplitFree(s: string, sep: string)
    requires sep != []
    ensures forall k :: 0 <= k < |Split(s, sep)| ==> !Contains(Split(s, sep)[k], sep)
    decreases |s|
  {
    BeforeFree(s, sep);
    match IndexOf(s, sep, 0)
    case None =>
    case Some(i) =>
      SplitStep(s, sep, i);
      SplitFree(s[i + |sep|..], sep);
  }

  /** `s.split(sep)[0]`: the text of `s` before the first occurrence of `sep`, or all of `s`. */
  function Before(s: string, sep: string): (r: string)
    ensures |r| <= |s| && r == s[..|r|]
    ensures IndexOf(s, sep, 0).None? ==> r == s
    ensures IndexOf(s, sep, 0).Some? ==> |r| == IndexOf(s, sep, 0).value
  {
    match IndexOf(s, sep, 0)
    case None => s
    case Some(i) => s[..i]
  }

  /** The first piece of a split is the text before the first `sep`. */
  lemma SplitHead(s: string, sep: string)
    requires sep != []
    ensures Split(s, sep)[0] == Before(s, sep)
    ensures |Split(s, sep)| >= 2 <==> IndexOf(s, sep, 0).Some?
  {
  }

  /**
   * The first two pieces of a split: the text before the first `sep`, and
   * the text between the first and the second one. There is a second
   * piece exactly when `sep` occurs.
   */
  lemma SplitPieces(s: string, sep: string)
    requires sep != []
    ensures Split(s, sep)[0] == Before(s, sep)
    ensures |Split(s, sep)| >= 2 <==> IndexOf(s, sep, 0).Some?
    ensures IndexOf(s, sep, 0).Some? ==>
              Split(s, sep)[1] == Before(s[IndexOf(s, sep, 0).value + |sep|..], sep)
  {
    SplitHead(s, sep);
    match IndexOf(s, sep, 0)
    case None =>
    case Some(i) =>
      SplitStep(s, sep, i);
      SplitHead(s[i + |sep|..], sep);
  }

  /** Text in which `.` matches every character. */
  predicate OnOneLine(s: string) {
    forall k :: 0 <= k < |s| ==> !IsLineTerminator(s[k])
  }
}

=== FILE: todo_store.dfy ===
/**
 * The todo board's data logic: the `TodoState` store, which keeps its
 * records in local storage and answers by tab, and the older code path
 * that mutates a global `data` array directly.
 *
 * Local storage and JSON become a `Storage` value held by the store;
 * `crypto.randomUUID()` and `new Date()` become parameters.
 */
module TodoStore {
  import opened Wrappers
  import Text

  /** A task: `completedAt` is `null` while it is open. Timestamps are milliseconds. */
  datatype Todo = Todo(id: string, title: string, description: string, isArchived: bool, createdAt: int, completedAt: Option<int>)

  /** An object spread over a record, `{...todo, ...patch}`: each present field overrides. */
  datatype TodoPatch = TodoPatch(
    id: Option<string>, title: Option<string>, description: Option<string>,
    isArchived: Option<bool>, createdAt: Option<int>, completedAt: Option<Option<int>>)

  const NoChange := TodoPatch(None, None, None, None, None, None)

  /** What `JSON.parse(localStorage.getItem("todos"))` meets under the storage key. */
  datatype Storage =
    | Absent                      // nothing stored: `null || []`
    | Unparsable                  // `JSON.parse` throws
    | NotAList                    // parses, but not to an array
    | Records(todos: seq<Todo>)

  datatype Stats = Stats(all: nat, open: nat, closed: nat, archived: nat)

  /** `{...t, ...p}`. */
  function Merge(t: Todo, p: TodoPatch): (r: Todo)
    ensures p == NoChange ==> r == t
    ensures r.id == (if p.id.Some? then p.id.value else t.id)
    ensures r.title == (if p.title.Some? then p.title.value else t.title)
    ensures r.description == (if p.description.Some? then p.description.value else t.description)
    ensures r.isArchived == (if p.isArchived.Some? then p.isArchived.value else t.isArchived)
    ensures r.createdAt == (if p.createdAt.Some? then p.createdAt.value else t.createdAt)
    ensures r.completedAt == (if p.completedAt.Some? then p.completedAt.value else t.completedAt)
  {
    Todo(p.id.GetOr(t.id), p.title.GetOr(t.title), p.description.GetOr(t.description),
         p.isArchived.GetOr(t.isArchived), p.createdAt.GetOr(t.createdAt), p.completedAt.GetOr(t.completedAt))
  }

  // ---------------------------------------------------------------
  // Newest-first order: `sort((a, b) => new Date(b.createdAt) - new Date(a.createdAt))`
  // ---------------------------------------------------------------

  /** Each record is at least as new as the next one. */
  predicate NewestFirstOrder(s: seq<Todo>) {
    forall i :: 0 <= i < |s| - 1 ==> s[i].createdAt >= s[i + 1].createdAt
  }

  /** In a newest-first list every record is at least as new as every later one. */
  lemma {:induction false} NewestFirstPairwise(s: seq<Todo>, i: nat, j: nat)
    requires NewestFirstOrder(s) && i <= j < |s|
    ensures s[i].createdAt >= s[j].createdAt
    decreases j - i
  {
    if i < j {
      NewestFirstPairwise(s, i + 1, j);
    }
  }

  /** Places `x` before the first record that is not newer than it. */
  function Insert(x: Todo, s: seq<Todo>): (r: seq<Todo>)
    ensures |r| == |s| + 1
    ensures multiset(r) == multiset(s) + multiset{x}
    ensures NewestFirstOrder(s) ==> NewestFirstOrder(r)
    ensures r[0] == x || (s != [] && r[0] == s[0])
    decreases |s|
  {
    if s == [] || x.createdAt >= s[0].createdAt then [x] + s
    else
      var rest := Insert(x, s[1..]);
      MultisetCons(s);
      [s[0]] + rest
  }

  /**
   * The order `getAll` returns: a permutation of the stored records,
   * newest first.
   */
  function NewestFirst(s: seq<Todo>): (r: seq<Todo>)
    ensures multiset(r) == multiset(s) && |r| == |s|
    ensures NewestFirstOrder(r)
    decreases |s|
  {
    if s == [] then []
    else
      MultisetCons(s);
      Insert(s[0], NewestFirst(s[1..]))
  }

  /** A list already newest-first comes back unchanged: sorting again is a no-op. */
  lemma {:induction false} NewestFirstFixed(s: seq<Todo>)
    requires NewestFirstOrder(s)
    ensures NewestFirst(s) == s
    decreases |s|
  {
    if s != [] {
      NewestFirstFixed(s[1..]);
      var t := s[1..];
      assert t == [] || s[0].createdAt >= t[0].createdAt;
      assert s == [s[0]] + t;
    }
  }

  // ---------------------------------------------------------------
  // Tabs and counts
  // ---------------------------------------------------------------

  /** The tabs of `FILTER_TYPES`, and any other value `currentFilter` may hold. */
  datatype Tab = All | Open | Closed | Archived | Unknown

  /** The `switch (this.currentFilter)` over the `FILTER_TYPES` strings. */
  function TabOf(filter: string): Tab {
    if filter == "all" then All
    else if filter == "open" then Open
    else if filter == "closed" then Closed
    else if filter == "archived" then Archived
    else Unknown
  }

  /** Whether a record shows under a tab; an unknown tab shows everything. */
  predicate Shown(t: Todo, tab: Tab) {
    match tab
    case All => !t.isArchived
    case Open => !t.isArchived && t.completedAt.None?
    case Closed => !t.isArchived && t.completedAt.Some?
    case Archived => t.isArchived
    case Unknown => true
  }

  /** `todos.filter(...)` for the tab `filter`: the shown records, in order. */
  function Select(todos: seq<Todo>, tab: Tab): (r: seq<Todo>)
    ensures |r| <= |todos|
    ensures forall i :: 0 <= i < |r| ==> Shown(r[i], tab)
  {
    if todos == [] then []
    else (if Shown(todos[0], tab) then [todos[0]] else []) + Select(todos[1..], tab)
  }

  lemma SelectCons(todos: seq<Todo>, tab: Tab)
    requires todos != []
    ensures Select(todos, tab) == (if Shown(todos[0], tab) then [todos[0]] else []) + Select(todos[1..], tab)
  {
  }

  /** A tab holds exactly the records shown under it. */
  lemma {:induction false} SelectMembers(todos: seq<Todo>, tab: Tab, t: Todo)
    ensures t in Select(todos, tab) <==> t in todos && Shown(t, tab)
    decreases |todos|
  {
    if todos != [] {
      SelectMembers(todos[1..], tab, t);
      SelectCons(todos, tab);
      assert todos == [todos[0]] + todos[1..];
    }
  }

  /**
   * The tabs partition the records: "all" splits into "open" and
   * "closed", and "all" with "archived" is every record.
   */
  lemma {:induction false} TabsPartition(todos: seq<Todo>)
    ensures |Select(todos, All)| == |Select(todos, Open)| + |Select(todos, Closed)|
    ensures |Select(todos, All)| + |Select(todos, Archived)| == |todos|
    decreases |todos|
  {
    if todos != [] {
      TabsPartition(todos[1..]);
      SelectCons(todos, All);
      SelectCons(todos, Open);
      SelectCons(todos, Closed);
      SelectCons(todos, Archived);
    }
  }

  /** The records of a tab, counted: the first record's share plus the rest's. */
  lemma SelectCount(todos: seq<Todo>, tab: Tab)
    requires todos != []
    ensures multiset(Select(todos, tab)) ==
            (if Shown(todos[0], tab) then multiset{todos[0]} else multiset{}) + multiset(Select(todos[1..], tab))
  {
    SelectCons(todos, tab);
  }

  lemma MultisetCons(todos: seq<Todo>)
    requires todos != []
    ensures multiset(todos) == multiset{todos[0]} + multiset(todos[1..])
  {
    assert todos == [todos[0]] + todos[1..];
  }

  /** Every record sits in exactly one of the tabs "all" and "archived". */
  lemma {:induction false} AllAndArchivedCoverAll(todos: seq<Todo>)
    ensures multiset(Select(todos, All)) + multiset(Select(todos, Archived)) == multiset(todos)
    decreases |todos|
  {
    if todos != [] {
      AllAndArchivedCoverAll(todos[1..]);
      SelectCount(todos, All);
      SelectCount(todos, Archived);
      MultisetCons(todos);
    }
  }

  /** `getStats()` over the loaded records: each count is the length of its tab. */
  function StatsOf(todos: seq<Todo>): (s: Stats)
    ensures s.all == s.open + s.closed
    ensures s.all + s.archived == |todos|
  {
    TabsPartition(todos);
    Stats(|Select(todos, All)|, |Select(todos, Open)|, |Select(todos, Closed)|, |Select(todos, Archived)|)
  }

  // ---------------------------------------------------------------
  // Lookup and changes on the loaded list
  // ---------------------------------------------------------------

  /** `todos.findIndex(todo => todo.id === id)`, `None` for -1. */
  function IndexOfId(todos: seq<Todo>, id: string, from: nat := 0): (r: Option<nat>)
    requires from <= |todos|
    ensures r.Some? ==> from <= r.value < |todos| && todos[r.value].id == id
    ensures r.Some? ==> forall j :: from <= j < r.value ==> todos[j].id != id
    ensures r.None? ==> forall j :: from <= j < |todos| ==> todos[j].id != id
    decreases |todos| - from
  {
    if from == |todos| then None
    else if todos[from].id == id then Some(from)
    else IndexOfId(todos, id, from + 1)
  }

  /** `todos.filter(todo => todo.id !== id)`. */
  function WithoutId(todos: seq<Todo>, id: string): (r: seq<Todo>)
    ensures forall t :: t in r <==> t in todos && t.id != id
    ensures (forall j :: 0 <= j < |todos| ==> todos[j].id != id) ==> r == todos
    ensures multiset(r) <= multiset(todos)
  {
    if todos == [] then []
    else
      var rest := WithoutId(todos[1..], id);
      assert todos == [todos[0]] + todos[1..];
      if todos[0].id != id then [todos[0]] + rest else rest
  }

  /** The filter keeps order and every copy: it distributes over concatenation. */
  lemma {:induction false} WithoutIdAppend(a: seq<Todo>, b: seq<Todo>, id: string)
    ensures WithoutId(a + b, id) == WithoutId(a, id) + WithoutId(b, id)
    decreases |a|
  {
    if a == [] {
      assert a + b == b;
    } else {
      assert (a + b)[0] == a[0] && (a + b)[1..] == a[1..] + b;
      WithoutIdAppend(a[1..], b, id);
    }
  }

  /** One record is kept exactly when its id differs. */
  lemma WithoutIdOne(t: Todo, id: string)
    ensures WithoutId([t], id) == if t.id != id then [t] else []
  {
    assert [t][1..] == [];
  }

  /** `todos[index] = {...todos[index], ...updates}` for the first record with `id`. */
  function Updated(todos: seq<Todo>, id: string, updates: TodoPatch): (r: Option<seq<Todo>>)
    ensures r.None? <==> forall j :: 0 <= j < |todos| ==> todos[j].id != id
    ensures r.Some? ==> |r.value| == |todos|
    ensures r.Some? ==> exists i :: 0 <= i < |todos| && todos[i].id == id && r.value[i] == Merge(todos[i], updates)
                                    && (forall j :: 0 <= j < i ==> todos[j].id != id)
                                    && forall j :: 0 <= j < |todos| && j != i ==> r.value[j] == todos[j]
  {
    match IndexOfId(todos, id)
    case None => None
    case Some(i) => Some(todos[i := Merge(todos[i], updates)])
  }

  /** The patch `toggleComplete` applies: `completedAt ? null : now`. */
  function CompletePatch(t: Todo, now: int): TodoPatch {
    NoChange.(completedAt := Some(if t.completedAt.Some? then None else Some(now)))
  }

  /** The patch `toggleArchive` applies: `isArchived: !isArchived`. */
  function ArchivePatch(t: Todo): TodoPatch {
    NoChange.(isArchived := Some(!t.isArchived))
  }

  /** The records `getAll` returns: the stored array newest first, or `[]`. */
  function Loaded(st: Storage): seq<Todo> {
    match st
    case Records(s) => NewestFirst(s)
    case _ => []
  }

  /** The storage after `getAll`: a parse failure resets it to `[]`. */
  function AfterLoad(st: Storage): Storage {
    if st.Unparsable? then Records([]) else st
  }

  /** Loading again after a load sees the same records. */
  lemma LoadStable(st: Storage)
    ensures Loaded(AfterLoad(st)) == Loaded(st)
  {
  }

  /** The list with the archive flag of the first record with `id` flipped. */
  function FlipArchived(todos: seq<Todo>, id: string): (r: seq<Todo>)
    ensures |r| == |todos|
    ensures forall k :: 0 <= k < |r| ==> r[k].id == todos[k].id && r[k].createdAt == todos[k].createdAt
    ensures IndexOfId(todos, id).None? ==> r == todos
    ensures IndexOfId(todos, id).Some? ==>
              var i := IndexOfId(todos, id).value;
              r == todos[i := todos[i].(isArchived := !todos[i].isArchived)]
  {
    match IndexOfId(todos, id)
    case None => todos
    case Some(i) => todos[i := Merge(todos[i], ArchivePatch(todos[i]))]
  }

  /** Flipping the archive flag is an involution. */
  lemma FlipArchivedTwice(todos: seq<Todo>, id: string)
    ensures FlipArchived(FlipArchived(todos, id), id) == todos
  {
    IndexOfIdSameIds(todos, FlipArchived(todos, id), id, 0);
  }

  /** The storage after `toggleArchive(id)`. */
  function ArchiveToggled(st: Storage, id: string): Storage {
    var todos := Loaded(st);
    if IndexOfId(todos, id).None? then AfterLoad(st) else Records(FlipArchived(todos, id))
  }

  /** The storage after `toggleComplete(id)` at time `now`. */
  function CompleteToggled(st: Storage, id: string, now: int): Storage {
    var todos := Loaded(st);
    match IndexOfId(todos, id)
    case None => AfterLoad(st)
    case Some(i) => Records(todos[i := Merge(todos[i], CompletePatch(todos[i], now))])
  }

  /**
   * Toggling the archive flag of a stored record twice gives back the
   * records `getAll` returned before, flag included.
   */
  lemma ArchiveToggleTwice(s: seq<Todo>, id: string)
    requires exists j :: 0 <= j < |s| && s[j].id == id
    ensures ArchiveToggled(ArchiveToggled(Records(s), id), id) == Records(NewestFirst(s))
  {
    var todos := NewestFirst(s);
    NewestFirstKeepsIds(s, id);
    ToggleOnStored(s, id);
    var once := FlipArchived(todos, id);
    FlipArchivedKeepsOrder(todos, id);
    ToggleOnOrdered(once, id);
    FlipArchivedTwice(todos, id);
  }

  /** Toggling a stored record flips its flag in the loaded list. */
  lemma ToggleOnStored(s: seq<Todo>, id: string)
    requires IndexOfId(NewestFirst(s), id).Some?
    ensures ArchiveToggled(Records(s), id) == Records(FlipArchived(NewestFirst(s), id))
  {
  }

  /** On a list already newest first, toggling flips the flag in place. */
  lemma ToggleOnOrdered(todos: seq<Todo>, id: string)
    requires NewestFirstOrder(todos)
    ensures ArchiveToggled(Records(todos), id) == Records(FlipArchived(todos, id))
  {
    NewestFirstFixed(todos);
  }

  /** Flipping a flag keeps the newest-first order. */
  lemma FlipArchivedKeepsOrder(todos: seq<Todo>, id: string)
    requires NewestFirstOrder(todos)
    ensures NewestFirstOrder(FlipArchived(todos, id))
  {
  }

  /** Sorting newest first loses no record, so an id present before is found after. */
  lemma NewestFirstKeepsIds(s: seq<Todo>, id: string)
    requires exists j :: 0 <= j < |s| && s[j].id == id
    ensures IndexOfId(NewestFirst(s), id).Some?
  {
    var todos := NewestFirst(s);
    var j :| 0 <= j < |s| && s[j].id == id;
    assert s[j] in multiset(s);
    assert s[j] in todos;
  }

  /** Lookup by id depends only on the ids. */
  lemma {:induction false} IndexOfIdSameIds(todos: seq<Todo>, todos': seq<Todo>, id: string, from: nat)
    requires |todos| == |todos'| && from <= |todos|
    requires forall k :: 0 <= k < |todos| ==> todos[k].id == todos'[k].id
    ensures IndexOfId(todos, id, from) == IndexOfId(todos', id, from)
    decreases |todos| - from
  {
    if from < |todos| {
      IndexOfIdSameIds(todos, todos', id, from + 1);
    }
  }

  /**
   * `TodoState`: the store behind the board. Every operation starts with
   * `getAll()` and every change saves the whole loaded list back, so a
   * change also leaves the stored records newest first.
   */
  class TodoState {
    var currentFilter: string
    var storage: Storage

    constructor (stored: Storage)
      ensures currentFilter == "all" && storage == stored
    {
      currentFilter := "all";
      storage := stored;
    }

    /** `getAll()`: the stored records newest first; `[]` otherwise, resetting unparsable storage. */
    method GetAll() returns (todos: seq<Todo>)
      modifies this
      ensures todos == Loaded(old(storage))
      ensures storage == AfterLoad(old(storage)) && currentFilter == old(currentFilter)
    {
      match storage
      case Records(s) =>
        todos := NewestFirst(s);
      case Unparsable =>
        storage := Records([]);
        todos := [];
      case _ =>
        todos := [];
    }

    /** `getFiltered()`: the loaded records shown under the current tab. */
    method GetFiltered() returns (todos: seq<Todo>)
      modifies this
      ensures todos == Select(Loaded(old(storage)), TabOf(old(currentFilter)))
      ensures storage == AfterLoad(old(storage)) && currentFilter == old(currentFilter)
    {
      var all := GetAll();
      todos := Select(all, TabOf(currentFilter));
    }

    /** `findById(id)`: the first loaded record with that id, newest first. */
    method FindById(id: string) returns (found: Option<Todo>)
      modifies this
      ensures found.Some? <==> exists j :: 0 <= j < |Loaded(old(storage))| && Loaded(old(storage))[j].id == id
      ensures found.Some? ==> found == Some(Loaded(old(storage))[IndexOfId(Loaded(old(storage)), id).value])
      ensures storage == AfterLoad(old(storage)) && currentFilter == old(currentFilter)
    {
      var todos := GetAll();
      var i := IndexOfId(todos, id);
      found := if i.Some? then Some(todos[i.value]) else None;
    }

    /**
     * `create(todoData)`: appends one record whose defaults (`isArchived`
     * false, `completedAt` null, a fresh id, the current time) the caller's
     * fields override.
     */
    method Create(todoData: TodoPatch, freshId: string, now: int) returns (created: Todo)
      modifies this
      ensures created == Merge(Todo(freshId, "", "", false, now, None), todoData)
      ensures created.id == (if todoData.id.Some? then todoData.id.value else freshId)
      ensures todoData.isArchived.None? ==> !created.isArchived
      ensures todoData.completedAt.None? ==> created.completedAt.None?
      ensures todoData.createdAt.None? ==> created.createdAt == now
      ensures storage == Records(Loaded(old(storage)) + [created])
      ensures currentFilter == old(currentFilter)
    {
      var todos := GetAll();
      created := Merge(Todo(freshId, "", "", false, now, None), todoData);
      storage := Records(todos + [created]);
    }

    /** `update(id, updates)`: `None` for an unknown id, else the merged record. */
    method Update(id: string, updates: TodoPatch) returns (result: Option<Todo>)
      modifies this
      ensures result.None? <==> Updated(Loaded(old(storage)), id, updates).None?
      ensures result.None? ==> storage == AfterLoad(old(storage))
      ensures result.Some? ==>
                var i := IndexOfId(Loaded(old(storage)), id).value;
                && result.value == Merge(Loaded(old(storage))[i], updates)
                && storage == Records(Loaded(old(storage))[i := result.value])
                && storage == Records(Updated(Loaded(old(storage)), id, updates).value)
      ensures currentFilter == old(currentFilter)
    {
      var todos := GetAll();
      var index := IndexOfId(todos, id);
      if index.None? {
        return None;
      }
      todos := todos[index.value := Merge(todos[index.value], updates)];
      storage := Records(todos);
      result := Some(todos[index.value]);
    }

    /** `delete(id)`: keeps every loaded record whose id differs. */
    method Delete(id: string)
      modifies this
      ensures storage == Records(WithoutId(Loaded(old(storage)), id))
      ensures currentFilter == old(currentFilter)
    {
      var todos := GetAll();
      storage := Records(WithoutId(todos, id));
    }

    /** `toggleComplete(id)`: flips `completedAt` between null and `now`. */
    method ToggleComplete(id: string, now: int) returns (result: Option<Todo>)
      modifies this
      ensures storage == CompleteToggled(old(storage), id, now)
      ensures result.Some? <==> exists j :: 0 <= j < |Loaded(old(storage))| && Loaded(old(storage))[j].id == id
      ensures result.Some? ==>
                && IndexOfId(Loaded(old(storage)), id).Some?
                && (result.value.completedAt.Some? <==>
                    Loaded(old(storage))[IndexOfId(Loaded(old(storage)), id).value].completedAt.None?)
      ensures currentFilter == old(currentFilter)
    {
      var todo := FindById(id);
      if todo.None? {
        return None;
      }
      LoadStable(old(storage));
      result := Update(id, CompletePatch(todo.value, now));
    }

    /** `toggleArchive(id)`: flips `isArchived`. */
    method ToggleArchive(id: string) returns (result: Option<Todo>)
      modifies this
      ensures storage == ArchiveToggled(old(storage), id)
      ensures result.Some? <==> exists j :: 0 <= j < |Loaded(old(storage))| && Loaded(old(storage))[j].id == id
      ensures result.Some? ==>
                && IndexOfId(Loaded(old(storage)), id).Some?
                && result.value.isArchived == !Loaded(old(storage))[IndexOfId(Loaded(old(storage)), id).value].isArchived
      ensures currentFilter == old(currentFilter)
    {
      var todo := FindById(id);
      if todo.None? {
        return None;
      }
      LoadStable(old(storage));
      result := Update(id, ArchivePatch(todo.value));
    }

    /** `getStats()`: the tab counts of the loaded records. */
    method GetStats() returns (stats: Stats)
      modifies this
      ensures stats == StatsOf(Loaded(old(storage)))
      ensures stats.all == |Select(Loaded(old(storage)), All)| && stats.open == |Select(Loaded(old(storage)), Open)|
      ensures stats.closed == |Select(Loaded(old(storage)), Closed)| && stats.archived == |Select(Loaded(old(storage)), Archived)|
      ensures storage == AfterLoad(old(storage)) && currentFilter == old(currentFilter)
    {
      var todos := GetAll();
      stats := StatsOf(todos);
    }
  }

  // ---------------------------------------------------------------
  // The older code path over the global `data` array
  // ---------------------------------------------------------------

  /** What the form submit handler did. */
  datatype SubmitOutcome = TitleRequired | Created(todo: Todo) | Edited(todo: Todo) | UnknownId

  /**
   * The counts the older `updateStats` writes: "all" is every record,
   * archived ones included, and open/closed go by `completedAt` alone.
   */
  function LegacyStats(data: seq<Todo>): (s: Stats)
    ensures s.all == s.open + s.closed
    ensures s.all == |data|
    decreases |data|
  {
    if data == [] then Stats(0, 0, 0, 0)
    else
      var rest := LegacyStats(data[1..]);
      var t := data[0];
      Stats(rest.all + 1,
            rest.open + (if t.completedAt.None? then 1 else 0),
            rest.closed + (if t.completedAt.Some? then 1 else 0),
            rest.archived + (if t.isArchived then 1 else 0))
  }

  /** One more record adds its own contribution to each count. */
  lemma {:induction false} LegacyStatsSnoc(data: seq<Todo>, t: Todo)
    ensures var before := LegacyStats(data);
            LegacyStats(data + [t]) ==
              Stats(before.all + 1,
                    before.open + (if t.completedAt.None? then 1 else 0),
                    before.closed + (if t.completedAt.Some? then 1 else 0),
                    before.archived + (if t.isArchived then 1 else 0))
    decreases |data|
  {
    if data == [] {
      assert (data + [t])[1..] == [];
    } else {
      assert (data + [t])[1..] == data[1..] + [t];
      LegacyStatsSnoc(data[1..], t);
    }
  }

  /** Widening the counted range by index `n` adds one exactly when record `n` qualifies. */
  lemma OpenStep(data: seq<Todo>, n: nat)
    requires n < |data|
    ensures |set k | 0 <= k < n + 1 && data[k].completedAt.None?| ==
            |set k | 0 <= k < n && data[k].completedAt.None?| + (if data[n].completedAt.None? then 1 else 0)
  {
    var before := set k | 0 <= k < n && data[k].completedAt.None?;
    var after := set k | 0 <= k < n + 1 && data[k].completedAt.None?;
    if data[n].completedAt.None? {
      assert after == before + {n};
    } else {
      assert after == before;
    }
  }

  /** The open count of the first `n` records. */
  lemma {:induction false} LegacyOpenPrefix(data: seq<Todo>, n: nat)
    requires n <= |data|
    ensures LegacyStats(data[..n]).open == |set k | 0 <= k < n && data[k].completedAt.None?|
  {
    if n > 0 {
      LegacyOpenPrefix(data, n - 1);
      assert data[..n] == data[..n - 1] + [data[n - 1]];
      LegacyStatsSnoc(data[..n - 1], data[n - 1]);
      OpenStep(data, n - 1);
    }
  }

  /** Widening the counted range by index `n` adds one exactly when record `n` qualifies. */
  lemma ClosedStep(data: seq<Todo>, n: nat)
    requires n < |data|
    ensures |set k | 0 <= k < n + 1 && data[k].completedAt.Some?| ==
            |set k | 0 <= k < n && data[k].completedAt.Some?| + (if data[n].completedAt.Some? then 1 else 0)
  {
    var before := set k | 0 <= k < n && data[k].completedAt.Some?;
    var after := set k | 0 <= k < n + 1 && data[k].completedAt.Some?;
    if data[n].completedAt.Some? {
      assert after == before + {n};
    } else {
      assert after == before;
    }
  }

  /** The closed count of the first `n` records. */
  lemma {:induction false} LegacyClosedPrefix(data: seq<Todo>, n: nat)
    requires n <= |data|
    ensures LegacyStats(data[..n]).closed == |set k | 0 <= k < n && data[k].completedAt.Some?|
  {
    if n > 0 {
      LegacyClosedPrefix(data, n - 1);
      assert data[..n] == data[..n - 1] + [data[n - 1]];
      LegacyStatsSnoc(data[..n - 1], data[n - 1]);
      ClosedStep(data, n - 1);
    }
  }

  /** Widening the counted range by index `n` adds one exactly when record `n` qualifies. */
  lemma ArchivedStep(data: seq<Todo>, n: nat)
    requires n < |data|
    ensures |set k | 0 <= k < n + 1 && data[k].isArchived| ==
            |set k | 0 <= k < n && data[k].isArchived| + (if data[n].isArchived then 1 else 0)
  {
    var before := set k | 0 <= k < n && data[k].isArchived;
    var after := set k | 0 <= k < n + 1 && data[k].isArchived;
    if data[n].isArchived {
      assert after == before + {n};
    } else {
      assert after == before;
    }
  }

  /** The archived count of the first `n` records. */
  lemma {:induction false} LegacyArchivedPrefix(data: seq<Todo>, n: nat)
    requires n <= |data|
    ensures LegacyStats(data[..n]).archived == |set k | 0 <= k < n && data[k].isArchived|
  {
    if n > 0 {
      LegacyArchivedPrefix(data, n - 1);
      assert data[..n] == data[..n - 1] + [data[n - 1]];
      LegacyStatsSnoc(data[..n - 1], data[n - 1]);
      ArchivedStep(data, n - 1);
    }
  }

  /**
   * The older counts are `filter(...).length`: open counts the records
   * whose `completedAt` is null, closed those that have one, archived
   * those with the flag set.
   */
  lemma LegacyStatsCounts(data: seq<Todo>)
    ensures LegacyStats(data).open == |set k | 0 <= k < |data| && data[k].completedAt.None?|
    ensures LegacyStats(data).closed == |set k | 0 <= k < |data| && data[k].completedAt.Some?|
    ensures LegacyStats(data).archived == |set k | 0 <= k < |data| && data[k].isArchived|
  {
    assert data[..|data|] == data;
    LegacyOpenPrefix(data, |data|);
    LegacyClosedPrefix(data, |data|);
    LegacyArchivedPrefix(data, |data|);
  }

  /**
   * The older "all" count is the newer one plus the archived records, and
   * its archived count agrees with the newer one.
   */
  lemma {:induction false} LegacyStatsVersusStats(data: seq<Todo>)
    ensures LegacyStats(data).all == StatsOf(data).all + StatsOf(data).archived
    ensures LegacyStats(data).archived == StatsOf(data).archived
    decreases |data|
  {
    if data != [] {
      LegacyStatsVersusStats(data[1..]);
      assert data == [data[0]] + data[1..];
    }
  }

  /** The page's global `data`, as loaded at start-up and changed in place afterwards. */
  class LegacyBoard {
    var data: seq<Todo>

    constructor (stored: seq<Todo>)
      ensures data == stored
    {
      data := stored;
    }

    /** `destroy(id)`: `data = data.filter(todo => todo.id !== id)`. */
    method Destroy(id: string)
      modifies this
      ensures data == WithoutId(old(data), id)
    {
      data := WithoutId(data, id);
    }

    /** `toggleArchive(id)`: replaces the first record with that id by a copy with the flag flipped. */
    method ToggleArchive(id: string)
      requires exists j :: 0 <= j < |data| && data[j].id == id
      modifies this
      ensures var i := IndexOfId(old(data), id).value;
              data == old(data)[i := old(data)[i].(isArchived := !old(data)[i].isArchived)]
    {
      var index := IndexOfId(data, id).value;
      var todo := data[index];
      data := data[index := Merge(todo, ArchivePatch(todo))];
    }

    /** `toggleComplete(id)`: flips `completedAt` of the first record with that id between null and `now`. */
    method ToggleComplete(id: string, now: int)
      requires exists j :: 0 <= j < |data| && data[j].id == id
      modifies this
      ensures var i := IndexOfId(old(data), id).value;
              && data == old(data)[i := old(data)[i].(completedAt := if old(data)[i].completedAt.Some? then None else Some(now))]
              && (data[i].completedAt.None? <==> old(data)[i].completedAt.Some?)
    {
      var index := IndexOfId(data, id).value;
      var todo := data[index];
      data := data[index := Merge(todo, CompletePatch(todo, now))];
    }

    /**
     * The form's submit handler. A title that trims to "" is refused with
     * no change. An empty (after trimming) `editingId` appends a new open
     * record; otherwise the record with that id gets the form's title,
     * description and archive flag and keeps its id, creation time and
     * completion time.
     */
    method Submit(title: string, description: string, isArchived: bool, editingId: string, freshId: string, now: int)
      returns (outcome: SubmitOutcome)
      modifies this
      ensures Text.AllSpace(title) <==> outcome == TitleRequired
      ensures !Text.AllSpace(title) && Text.AllSpace(editingId) ==> outcome.Created?
      ensures outcome == TitleRequired ==> data == old(data)
      ensures outcome.Created? ==>
                && Text.AllSpace(editingId)
                && outcome.todo == Todo(freshId, title, description, isArchived, now, None)
                && data == old(data) + [outcome.todo]
      ensures outcome.Edited? ==>
                IndexOfId(old(data), editingId).Some? &&
                var i := IndexOfId(old(data), editingId).value;
                && outcome.todo == old(data)[i].(title := title, description := description, isArchived := isArchived)
                && data == old(data)[i := outcome.todo]
      ensures outcome == UnknownId <==>
                !Text.AllSpace(title) && !Text.AllSpace(editingId) && IndexOfId(old(data), editingId).None?
      ensures outcome == UnknownId ==> data == old(data)
    {
      Text.TrimEmptyIff(title);
      Text.TrimEmptyIff(editingId);
      if |Text.Trim(title)| == 0 {
        return TitleRequired;
      }
      if |Text.Trim(editingId)| == 0 {
        var todo := Todo(freshId, title, description, isArchived, now, None);
        data := data + [todo];
        return Created(todo);
      }
      var index := IndexOfId(data, editingId);
      if index.Some? {
        var todo := data[index.value];
        var updatedTodo := Todo(editingId, title, description, isArchived, todo.createdAt, todo.completedAt);
        data := data[index.value := updatedTodo];
        return Edited(updatedTodo);
      }
      return UnknownId;
    }
  }
}

=== FILE: wrappers.dfy ===
/** Optional values: JavaScript's `null`/`undefined` as opposed to a present value. */
module Wrappers {

  datatype Option<+T> = None | Some(value: T) {

    /** The value, or `default` when absent: JavaScript's `x ?? default`. */
    function GetOr(default: T): T {
      match this
      case Some(v) => v
      case None => default
    }
  }
}
